=== FILE: README.md ===
# Admin panel generator — a Dafny model of its core

The generator reads a spreadsheet that describes data models and writes a React
admin panel for them. Each sheet is one model, and each row of a sheet is one field.
This project models the parts of it that compute something from that input:

- **The spreadsheet normaliser** (`excelParser.ts`):
  - the row filter;
  - the label (`createLabel`);
  - option extraction from `"k => v, …"` comments (`parseOptionsFromComments`), modelled as an explicit scanner that includes the regex engine's backtracking;
  - the precedence of the zod type;
  - the widget table;
  - the `required` flag;
  - the description/placeholder text;
  - the assembly of the per-sheet record;
  - the missing-file error.
- **The list page generator's helpers**: sanitising identifiers, the zod-to-TypeScript type map, the primary display field, the type definition entries, the table columns and the shape of the thirteen mock rows.
- **The dashboard generator**: the keyword-to-icon table, the de-duplicated icon import list, the icon chosen for a model and one card per model.
- **Both form generators**: the split into a main grid and a last row of at most three, and the control each `uiType` is rendered with. The emitted JSX is described by its structure, not its text.
- **The sidebar generator's `navItems`**, and the **sidebar component's** navigation tree: `isLinkActive`, the trigger highlight, the `href || "#"` fallback and the collapsed icon bar.
- **Both router generators**: popup models against page models in the newer one, three routes per model in the older one. A `Consistency` module proves that every link offered by the dashboard and the generated sidebar leads to a generated route.

Modules, in dependency order:

| module | file |
|---|---|
| `Wrappers` | `wrappers.dfy` |
| `Text` | `text.dfy` |
| `Labels` | `labels.dfy` |
| `CommentOptions` | `comment_options.dfy` |
| `ExcelParser` | `excel_parser.dfy` |
| `Paths` | `paths.dfy` |
| `ListPage` | `list_page.dfy` |
| `Dashboard` | `dashboard.dfy` |
| `FormLayout` | `form_layout.dfy` |
| `NavTree` | `sidebar.dfy` |
| `SidebarGenerator` | `sidebar_generator.dfy` |
| `RoutesGenerator` | `routes_generator.dfy` |
| `AppRoutesGenerator` | `app_routes_generator.dfy` |
| `Consistency` | `consistency.dfy` |

JavaScript semantics that the model writes out:

- **Truthiness**: `cell || default` treats the empty string as absent.
- **Case mapping**: ASCII only.
- **Whitespace**: `trim` and the regex `\s` both remove the ECMAScript WhiteSpace and LineTerminator characters.
- **Record key order**: a `Record` keeps the insertion order of its keys, and assigning to an existing key keeps that key's position.
- **`find(...) || fields[1] || fields[0]`**: a field object is always truthy.

The code and some descriptions of the system disagree, and the model follows the code:

- Some descriptions credit the parser with:
  - stripping a trailing `_id` from labels;
  - extracting validation rules;
  - detecting `is_popup`/`no_crud` flags;
  - overriding the model name from cell B1.
- The parser modelled here does none of these. `Labels.RoleIdLabel` proves that `role_id` labels as `Role Id`, and the generated user form shows the same label.
- `ModelConfig` is imported by the newer router generator but not defined in the parser. It is modelled as a record carrying only `isPopup`.

## Model

| member | source | states |
|---|---|---|
| Text.ToUpperChar | backend/src/utils/generators/listPageGenerator.ts:8 | Upper-casing moves exactly the ASCII lower-case letters to their upper-case partners and leaves every other character alone |
| Text.ToLowerChar | backend/src/utils/excelParser.ts:87 | Lower-casing moves exactly the ASCII upper-case letters to their lower-case partners and leaves every other character alone |
| Text.LowerIdempotent | backend/src/utils/excelParser.ts:90 | Lower-casing an already lower-cased cell changes nothing |
| Text.LowerOfUpper | backend/src/utils/generators/dashboardGenerator.ts:32 | Lower-casing forgets case: an upper-cased name lower-cases to the same string as the original |
| Text.TrimStartSpec | backend/src/utils/excelParser.ts:62 | Dropping leading whitespace leaves a suffix of the input that does not start with whitespace, and everything dropped was whitespace |
| Text.TrimEndSpec | backend/src/utils/excelParser.ts:62 | Dropping trailing whitespace leaves a prefix of the input that does not end with whitespace, and everything dropped was whitespace |
| Text.TrimSpec | backend/src/utils/excelParser.ts:62 | `trim` returns a slice of its input that neither starts nor ends with whitespace |
| Text.TrimEmptyIff | backend/src/utils/excelParser.ts:82 | A trimmed cell is empty exactly when every character of the cell is whitespace |
| Text.TrimSubset | backend/src/utils/excelParser.ts:43 | Trimming introduces no character that was not in the input |
| Text.TrimOfTrimmed | backend/src/utils/excelParser.ts:43 | A string that neither starts nor ends with whitespace is its own trim |
| Text.TrimIdempotent | backend/src/utils/excelParser.ts:85 | Trimming twice is trimming once |
| Text.ContainsIff | backend/src/utils/excelParser.ts:38 | `includes` holds exactly when the substring occurs at some index |
| Text.ContainsAt | backend/src/utils/generators/dashboardGenerator.ts:34 | An occurrence at a known index makes `includes` true |
| Text.ReplaceCharRemoves | backend/src/utils/excelParser.ts:27 | Replacing every `a` by a different character leaves no `a` |
| Text.ReplaceCharAbsent | backend/src/utils/excelParser.ts:27 | Replacing a character that does not occur changes nothing |
| Text.Capitalize | backend/src/utils/generators/listPageGenerator.ts:8 | `capitalize` keeps the length, upper-cases only the first character, keeps the rest, and maps `""` to `""` |
| Text.Split | backend/src/utils/excelParser.ts:29 | `split(' ')` yields at least one piece, and no piece contains the separator |
| Text.JoinSplit | backend/src/utils/excelParser.ts:29-31 | Joining the pieces of a split with the same separator gives the input back |
| Text.JoinConsHead | backend/src/utils/excelParser.ts:29-31 | Text prepended to the first piece comes out in front of the joined string |
| Text.Dedup | backend/src/utils/generators/dashboardGenerator.ts:28 | `[...new Set(xs)]` has no repeats, holds exactly the elements of `xs`, and lists them in the order of their first occurrence in `xs` |
| Text.DedupCharacterised | backend/src/utils/generators/dashboardGenerator.ts:28 | Any repeat-free list of exactly the elements of `xs`, in the order of first occurrence, is the de-duplication of `xs`: those three properties fix `[...new Set(xs)]` completely |
| Labels.SplitCamel | backend/src/utils/excelParser.ts:28 | The camel-case replacement keeps the first character and adds nothing but spaces |
| Labels.MapCapitalize | backend/src/utils/excelParser.ts:30 | The word map capitalises every word, one result per word |
| Labels.TitleCaseAt | backend/src/utils/excelParser.ts:29-31 | Exactly the characters that begin a space-separated word are upper-cased; every other character is kept |
| Labels.CapitalizeWordsIsTitleCase | backend/src/utils/excelParser.ts:29-31 | Splitting on spaces, capitalising each word and joining with spaces is title-casing the string in place |
| Labels.CreateLabel | backend/src/utils/excelParser.ts:24-32 | The label is the title case of the name after underscores become spaces and camel-case pairs are split |
| Labels.TitleCaseAppend | backend/src/utils/excelParser.ts:29-31 | Title-casing a concatenation title-cases each part, the second starting a word exactly when the first ends in a space |
| Labels.SplitCamelSeparates | backend/src/utils/excelParser.ts:28 | After the camel-case replacement, no lower-case ASCII letter is directly followed by an upper-case one |
| Labels.SplitCamelFixed | backend/src/utils/excelParser.ts:28 | The camel-case replacement changes nothing when no such pair is left |
| Labels.TitleCaseKeepsNoCamelPair | backend/src/utils/excelParser.ts:30 | Title-casing creates no new lower/upper pair |
| Labels.TitleCaseIdempotent | backend/src/utils/excelParser.ts:29-31 | Title-casing twice is title-casing once |
| Labels.LabelHasNoUnderscore | backend/src/utils/excelParser.ts:27 | No label contains `_` |
| Labels.LabelHasNoCamelPair | backend/src/utils/excelParser.ts:28 | In every label each lower/upper ASCII pair has been split by a space |
| Labels.CreateLabelIdempotent | backend/src/utils/excelParser.ts:24-32 | Labelling a label gives the same label back |
| Labels.EmptyLabel | backend/src/utils/excelParser.ts:25 | The empty name has the empty label |
| Labels.LabelOfSnakeName | backend/src/utils/excelParser.ts:24-32 | A snake_case name without camel-case pairs is labelled by title-casing it with spaces for underscores |
| Labels.LabelOfSteps | backend/src/utils/excelParser.ts:26-31 | The label is determined by the result of each step: replacement, camel split, title case |
| Labels.TitleCaseOf | backend/src/utils/excelParser.ts:30 | A string that upper-cases exactly the word-initial characters of `s`, and keeps the others, is the title case of `s` |
| Labels.FirstNameLabel | backend/src/utils/excelParser.ts:24-32 | `first_name` labels as `First Name` |
| Labels.RoleIdLabel | frontend/src/components/generated/UserForm.tsx:63 | `role_id` labels as `Role Id`: the `_id` suffix is kept, as the generated form shows |
| Labels.PipedLabel | frontend/src/components/generated/UserForm.tsx:146 | `user_picture\|user_id\|picture` labels as `User Picture\|user Id\|picture`: `\|` does not start a word |
| Labels.CamelLabel | backend/src/utils/excelParser.ts:28-31 | `bgColor` labels as `Bg Color` |
| CommentOptions.WhitespaceRun | backend/src/utils/excelParser.ts:39 | The greedy `\s*` run after `=>` is all whitespace and stops at the first other character |
| CommentOptions.ValueRun | backend/src/utils/excelParser.ts:39 | The greedy `[^,'"]+` run is all value characters and stops at a comma, a quote or the end |
| CommentOptions.ValueEndAt | backend/src/utils/excelParser.ts:39 | A run of value characters ended by the end or by a comma or quote is exactly the run the regex takes |
| CommentOptions.MatchAfterArrow | backend/src/utils/excelParser.ts:39 | A match after `=>` consumes at least one character, so the global scan advances |
| CommentOptions.MatchAfterArrowGroup | backend/src/utils/excelParser.ts:39 | A captured group is non-empty and free of `,`, `'` and `"`, including the backtracked single-whitespace group |
| CommentOptions.NextMatch | backend/src/utils/excelParser.ts:42 | One `exec` call resumes strictly after its starting index, so the loop terminates |
| CommentOptions.NextMatchGroup | backend/src/utils/excelParser.ts:42 | The group of the next match, wherever it is found, is non-empty and free of `,`, `'` and `"` |
| CommentOptions.ScanGroups | backend/src/utils/excelParser.ts:42-44 | Every group the loop collects is non-empty and free of `,`, `'` and `"` |
| CommentOptions.TrimmedGroupsClean | backend/src/utils/excelParser.ts:43 | Trimming groups free of `,`, `'` and `"` gives trimmed options free of them |
| CommentOptions.TrimmedGroupIsClean | backend/src/utils/excelParser.ts:43 | A trimmed group is trimmed and free of `,`, `'` and `"` |
| CommentOptions.ScanOptions | backend/src/utils/excelParser.ts:42-44 | One option is pushed per match, and every pushed option is trimmed and free of `,`, `'` and `"` |
| CommentOptions.ParseOptions | backend/src/utils/excelParser.ts:37-46 | `undefined` exactly for an empty comment, one without `=>`, or one in which the scan finds no match; any list returned is non-empty and every entry is trimmed and free of `,`, `'` and `"` |
| CommentOptions.MatchSkip | backend/src/utils/excelParser.ts:42 | A stretch of the comment without `=>` contributes no match |
| CommentOptions.ArrowThenValue | backend/src/utils/excelParser.ts:39 | `=>`, one space and a clean value ended by a comma or the end capture exactly that value |
| CommentOptions.KeySkip | backend/src/utils/excelParser.ts:42 | A key without `=>`, and the space after it, contribute no match |
| CommentOptions.ScanPair | backend/src/utils/excelParser.ts:39-43 | One `k => v` pair yields the match `v` and resumes right after it |
| CommentOptions.ScanStep | backend/src/utils/excelParser.ts:42-44 | A match contributes its group to the loop's list, ahead of what the resumed search collects |
| CommentOptions.ScanChain | backend/src/utils/excelParser.ts:42-44 | A scan that proceeds pair by pair collects exactly the values of the pairs, in order |
| CommentOptions.LaidOutChain | backend/src/utils/excelParser.ts:42-44 | Clean pairs laid out as `k => v, …` are scanned one pair at a time |
| CommentOptions.RenderedIsLaidOut | backend/src/utils/excelParser.ts:16 | The documented `"k1 => v1, k2 => v2"` format lays the pairs out one after another |
| CommentOptions.ScanLaidOut | backend/src/utils/excelParser.ts:39-44 | Scanning laid-out clean pairs pushes exactly their values, in order |
| CommentOptions.ParseRenderedPairs | backend/src/utils/excelParser.ts:37-46 | Round trip: parsing a rendered list of clean key/value pairs returns exactly the values, in order |
| CommentOptions.StatusCommentRendersPairs | backend/src/utils/excelParser.ts:16 | `"Y => Active, N => Inactive"` is the rendering of the pairs `Y`/`Active` and `N`/`Inactive` |
| CommentOptions.StatusOptions | backend/src/utils/excelParser.ts:16 | `"Y => Active, N => Inactive"` parses to `["Active", "Inactive"]` |
| ExcelParser.CellOr | backend/src/utils/excelParser.ts:86-87 | `cell \|\| default` is the cell when present and non-empty, the default otherwise |
| ExcelParser.NormaliseRow | backend/src/utils/excelParser.ts:84-124 | A kept row's field has: the trimmed non-empty column as its name; the label of that name; `Enter <label>...` as placeholder; the lower-cased type; the inferred zod type and widget; the `required` flag; the comment's options. Exactly one of options and description is present, and the description is the comment |
| ExcelParser.KeptRows | backend/src/utils/excelParser.ts:79-83 | The filter keeps only rows whose column cell is non-blank, each one a row of the input, and never more rows than the input |
| ExcelParser.ParseRows | backend/src/utils/excelParser.ts:79-125 | A sheet yields at most one field per row, each named by a non-empty trimmed string |
| ExcelParser.InferZodType | backend/src/utils/excelParser.ts:89-99 | The zod type is `number` exactly for a numeric column; `boolean` only for a switch, `date` only for a date column without a switch, `any` only for a non-date file upload, and `string` only when none of these cells applies |
| ExcelParser.MapUiType | backend/src/utils/excelParser.ts:101-110 | A listed widget name gets the control it names; an input is given exactly to names that no other control is named by |
| ExcelParser.MapUiTypeRoundTrip | backend/src/utils/excelParser.ts:102-108 | Every control other than the input is selected by its own widget name |
| ExcelParser.KeepRow | backend/src/utils/excelParser.ts:80-83 | A row is kept exactly when its column cell is present and holds a character other than whitespace |
| ExcelParser.IsRequired | backend/src/utils/excelParser.ts:120 | A field is required exactly when its `is_null` cell is present and trims to `N` or `n` |
| ExcelParser.SwitchIsBooleanCheckbox | backend/src/utils/excelParser.ts:89-105 | The zod type is `boolean` exactly for a switch on a non-numeric column, and the widget is a checkbox exactly for a switch |
| ExcelParser.AnyOnlyForFiles | backend/src/utils/excelParser.ts:89-99 | The zod type is `any` exactly for a file upload whose column is neither numeric nor a date |
| ExcelParser.NumericWins | backend/src/utils/excelParser.ts:91-92 | A numeric column type gives `number` whatever the widget |
| ExcelParser.MissingWidgetIsInput | backend/src/utils/excelParser.ts:87 | A missing or empty widget cell defaults to `text`: an input whose zod type is string, number or date, never boolean or any |
| ExcelParser.UpperIsN | backend/src/utils/excelParser.ts:120 | Upper-casing gives `N` exactly for `N` and `n` |
| ExcelParser.RequiredIff | backend/src/utils/excelParser.ts:120 | A field is required exactly when its `is_null` cell is present and trims to `N` or `n` |
| ExcelParser.PlainCommentIsDescription | backend/src/utils/excelParser.ts:112-122 | A comment without `=>` gives no options and becomes the description |
| ExcelParser.KeptRowsAppend | backend/src/utils/excelParser.ts:79-83 | The filter distributes over concatenation of row lists |
| ExcelParser.ParseRowsAppend | backend/src/utils/excelParser.ts:79-125 | Filter-then-map distributes over concatenation, so fields come out in row order |
| ExcelParser.ParseRowsSingle | backend/src/utils/excelParser.ts:79-85 | One row yields its own field when it is kept and nothing when it is dropped |
| ExcelParser.ParseRowsEmptyIff | backend/src/utils/excelParser.ts:79-83 | A sheet yields no field exactly when every column cell is missing, empty or blank |
| ExcelParser.KeptRowsEmptyIff | backend/src/utils/excelParser.ts:79-83 | The filter drops everything exactly when no row passes it |
| ExcelParser.Names | backend/src/utils/excelParser.ts:56 | The record's keys, one per entry, in entry order |
| ExcelParser.Lookup | backend/src/utils/excelParser.ts:129 | Looking up a name finds nothing exactly when it is not a key |
| ExcelParser.Assign | backend/src/utils/excelParser.ts:129 | Assigning a key keeps the position of an existing key, or appends a new one; the key then holds the new fields and every other key is unchanged |
| ExcelParser.ContributingNames | backend/src/utils/excelParser.ts:61-63 | Every contributing name is a non-empty trimmed sheet name |
| ExcelParser.AddSheet | backend/src/utils/excelParser.ts:61-132 | One loop step leaves the keys alone or appends the sheet's new, non-empty trimmed name; no other key's fields change |
| ExcelParser.ParseWorkbook | backend/src/utils/excelParser.ts:56-134 | No key of the record repeats, and none is empty |
| ExcelParser.AddSheetSpec | backend/src/utils/excelParser.ts:61-132 | One loop step adds or overwrites the trimmed sheet name exactly when the name is non-empty, the sheet has rows and they yield a field; otherwise the record is unchanged |
| ExcelParser.ParseWorkbookSpec | backend/src/utils/excelParser.ts:61-134 | The record's keys are the contributing trimmed sheet names in order of first appearance; each key holds the fields of the last sheet with that name |
| ExcelParser.WorkbookKeys | backend/src/utils/excelParser.ts:61-134 | No key repeats, and every key is the non-empty trimmed name of some sheet |
| ExcelParser.ContributingNameFrom | backend/src/utils/excelParser.ts:61-74 | Every contributing name comes from a sheet that contributes |
| ExcelParser.SilentSheetOmitted | backend/src/utils/excelParser.ts:63-74 | A sheet with a blank name, no rows, or no field leaves the record exactly as it was |
| ExcelParser.ParseExcel | backend/src/utils/excelParser.ts:51-135 | A missing file fails with `File not found at path: <path>`; otherwise the result is the record described by the workbook theorem |
| Paths.ListPath | backend/src/utils/generators/dashboardGenerator.ts:49 | The list path starts with `/`, ends with `s` and is two characters longer than the name; `Paths.ListPathInjective` shows it carries the lower-cased name |
| Paths.CreatePath | backend/src/utils/generators/sidebarGenerator.ts:24 | The create path starts with `/`, ends with `e` and is eight characters longer than the name |
| Paths.EditPath | backend/src/utils/generators/appRoutesGenerator.ts:24 | The edit path starts with `/`, ends with `d` and is ten characters longer than the name |
| Paths.PathKindsDisjoint | backend/src/utils/generators/routesGenerator.ts:40-57 | No list path equals a create or edit path, and no create path equals an edit path, whatever the model names |
| Paths.ListPathInjective | backend/src/utils/generators/routesGenerator.ts:36-41 | Two models share a list path exactly when their names agree up to ASCII case |
| Paths.PathsIgnoreCase | backend/src/utils/generators/appRoutesGenerator.ts:18-24 | All three paths ignore the case of the model name |
| ListPage.SanitizeFieldName | backend/src/utils/generators/listPageGenerator.ts:10-12 | Sanitising keeps the length |
| ListPage.SanitizeSpec | backend/src/utils/generators/listPageGenerator.ts:10-12 | Each identifier character is kept and every other character becomes `_`, so the result is made of identifier characters |
| ListPage.SanitizeIdempotent | backend/src/utils/generators/listPageGenerator.ts:10-12 | Sanitising twice is sanitising once |
| ListPage.SanitizeKeepsIdentifiers | backend/src/utils/generators/listPageGenerator.ts:10-12 | A name made only of identifier characters is unchanged |
| ListPage.MapToTsType | backend/src/utils/generators/listPageGenerator.ts:14-22 | Every zod type maps to `number`, `boolean`, `string` or `any` |
| ListPage.MapToTsTypeCollisions | backend/src/utils/generators/listPageGenerator.ts:14-22 | Two different zod types share a TypeScript type exactly when they are `date` and `string` |
| ListPage.IdTestAgrees | backend/src/utils/generators/listPageGenerator.ts:41 | Testing the sanitised name for `id` agrees with testing the raw name |
| ListPage.PrimaryDisplayField | backend/src/utils/generators/listPageGenerator.ts:29 | The first field named `name` in any case wins; otherwise the second field, otherwise the first; nothing only for an empty list |
| ListPage.PrimaryFilterKey | backend/src/utils/generators/listPageGenerator.ts:30 | The filter key is the sanitised name of one of the fields, and exists exactly for a non-empty list |
| ListPage.TypeEntryOf | backend/src/utils/generators/listPageGenerator.ts:38-44 | An `id`-like field is typed `number \| string`; any other field is keyed by its sanitised name and typed by the type map |
| ListPage.TypeDefinition | backend/src/utils/generators/listPageGenerator.ts:36-46 | One type entry per field, in field order |
| ListPage.TypeDefinitionEntries | backend/src/utils/generators/listPageGenerator.ts:36-46 | Every entry is keyed by an identifier string, and a field whose name is `id` in any case is always typed `number \| string` |
| ListPage.NonIdFields | backend/src/utils/generators/listPageGenerator.ts:53 | The filtered fields are fields of the input, none named `id` in any case |
| ListPage.TableColumns | backend/src/utils/generators/listPageGenerator.ts:123-163 | Between 3 and 10 columns: `select` first, `id` second, `actions` last |
| ListPage.TableColumnsData | backend/src/utils/generators/listPageGenerator.ts:134-137 | The data columns are exactly the first `min(7, n)` non-`id` fields, in order, keyed by sanitised name with the label as header, and none is keyed `id` |
| ListPage.MockValueOf | backend/src/utils/generators/listPageGenerator.ts:55 | A mock value is the number `i + 10` exactly for fields typed `number`; otherwise text ending in `i + 1`, whose prefix has the name's length and no underscore |
| ListPage.MockData | backend/src/utils/generators/listPageGenerator.ts:49-58 | Thirteen rows, the row at index `i` having id `i + 1` |
| ListPage.MockDataShape | backend/src/utils/generators/listPageGenerator.ts:51-56 | Mock ids never repeat, and no field key of a row clashes with its `id` key |
| ListPage.MockValuesFollowTypes | backend/src/utils/generators/listPageGenerator.ts:53-55 | In every row, a field's value is a number exactly when its type entry says `number`, and then it is `i + 10` |
| Dashboard.IconValues | backend/src/utils/generators/dashboardGenerator.ts:28 | `Object.values` lists the table's icons in key order |
| Dashboard.AllIcons | backend/src/utils/generators/dashboardGenerator.ts:28 | The import list has no repeats and holds exactly the table's icons |
| Dashboard.FirstKeyword | backend/src/utils/generators/dashboardGenerator.ts:33-37 | The search returns the first keyword, at or after its start, that occurs in the name, or reports that none does |
| Dashboard.IconForModel | backend/src/utils/generators/dashboardGenerator.ts:31-39 | The icon is one of the table's icons, and then that of a keyword occurring in the lower-cased name, or else `LayoutGrid` |
| Dashboard.IconForModelSpec | backend/src/utils/generators/dashboardGenerator.ts:31-39 | The icon is that of the first keyword in table order occurring in the lower-cased name, and the default exactly when no keyword occurs |
| Dashboard.IconIgnoresCase | backend/src/utils/generators/dashboardGenerator.ts:32 | Upper- or lower-casing the model name does not change its icon |
| Dashboard.IconIsImported | backend/src/utils/generators/dashboardGenerator.ts:28-59 | Every chosen icon is in the import list or is the default |
| Dashboard.DistinctIconsDistinct | backend/src/utils/generators/dashboardGenerator.ts:56-58 | The thirteen imported icon names are pairwise different |
| Dashboard.IconValuesLayout | backend/src/utils/generators/dashboardGenerator.ts:10-25 | The table's values are the distinct icons with `UserCog` repeated before `History` |
| Dashboard.AllIconsOnce | backend/src/utils/generators/dashboardGenerator.ts:21-28 | `UserCog` is the icon of two keywords but is imported once: thirteen icons in all |
| Dashboard.DedupDistinct | backend/src/utils/generators/dashboardGenerator.ts:28 | De-duplicating a list without repeats returns it unchanged |
| Dashboard.AdminUserIcon | backend/src/utils/generators/dashboardGenerator.ts:11-21 | `admin_user` gets `Users`, because `user` precedes `admin` in the table |
| Dashboard.NoKeywordIcon | backend/src/utils/generators/dashboardGenerator.ts:32-38 | Any name whose lower-cased form contains none of the table's keywords gets `LayoutGrid` |
| Dashboard.CardLabel | backend/src/utils/generators/dashboardGenerator.ts:48 | A card label keeps the name's length and contains no underscore |
| Dashboard.DashboardItems | backend/src/utils/generators/dashboardGenerator.ts:47-51 | One card per model, in order, with the capitalised label, the list path and the model's icon |
| Dashboard.CardLinksToList | backend/src/utils/generators/dashboardGenerator.ts:49 | The `i`-th card links to the `i`-th model's list page |
| Dashboard.DashboardHrefsDistinct | backend/src/utils/generators/dashboardGenerator.ts:49 | Cards of models whose names differ beyond case link to different pages |
| FormLayout.SplitIndex | backend/src/utils/generators/formGenerator.ts:42 | The split index never exceeds the field count |
| FormLayout.SplitLastRowSpec | backend/src/utils/generators/formGenerator.ts:42-44 | The main grid followed by the last row is the input; the last row holds `min(3, n)` items and the grid `max(0, n - 3)` |
| FormLayout.OptionItems | backend/src/utils/generators/formGenerator.ts:19 | One item per option, in order, and none when the options are undefined |
| FormLayout.Description | backend/src/utils/generators/formGenerator.ts:12 | A description element is emitted exactly for a present, non-empty description, and shows that description |
| FormLayout.FormField | backend/src/utils/generators/formGenerator.ts:10-33 | Every field is rendered under its own name and label; the render callback takes no argument exactly for files, and the label is wrapped exactly for checkboxes |
| FormLayout.LegacyFormField | backend/src/utils/formGenerator.ts:13-80 | The older generator renders under the field's own name and label, without a callback argument exactly for files, and never wraps the label |
| FormLayout.ControlFor | backend/src/utils/generators/formGenerator.ts:14-31 | Each control is chosen by exactly one `uiType`, except the input, which a colour picker also gets; select and radio show the field's options, textarea and input its placeholder, and a file input is registered under its name |
| FormLayout.ControlByType | backend/src/utils/generators/formGenerator.ts:14-31 | Select and radio show the option items; a checkbox is bound to the field; a file input is registered under the field name; textarea, colour and input use the placeholder |
| FormLayout.GeneratorsAgree | backend/src/utils/formGenerator.ts:18-69 | Both generators render every field the same way, except for the checkbox label's wrapper |
| FormLayout.ParsedOptionsShown | backend/src/utils/generators/formGenerator.ts:18-24 | A select or radio field parsed from a row shows exactly the options its comment lists |
| FormLayout.MapFields | backend/src/utils/formGenerator.ts:93-94 | Each field is rendered by the chosen generator, one view per field, in order |
| FormLayout.MapFieldsAppend | backend/src/utils/generators/formGenerator.ts:46-47 | Rendering two runs of fields one after the other is rendering them together |
| FormLayout.FormComponent | backend/src/utils/formGenerator.ts:89-94 | Every field is rendered exactly once, in order, under its own name, with `min(3, n)` in the last row, under either generator |
| NavTree.IsLinkActive | frontend/src/components/Sidebar.tsx:58-61 | An item is active exactly when some item of its subtree links to the path; its own `href` alone makes it active |
| NavTree.ActiveIffInSome | frontend/src/components/Sidebar.tsx:60 | Some item of a list is active exactly when the path is among the list's links |
| NavTree.HrefsOfAllIff | frontend/src/components/Sidebar.tsx:60 | A path is among a list's links exactly when it is among the links of one of its items |
| NavTree.ChildActiveParentActive | frontend/src/components/Sidebar.tsx:60 | An active child makes its parent active |
| NavTree.LeafActiveIff | frontend/src/components/Sidebar.tsx:59-60 | An item without children is active exactly on its own `href`; one without `href` never is |
| NavTree.TriggerHighlighted | frontend/src/components/Sidebar.tsx:87-88 | A highlighted trigger's subtree links to the path; a highlighted group links to the path itself or is the ancestor of an active item deeper than its direct children; an item at its own `href` with no direct child there is highlighted |
| NavTree.LinkTarget | frontend/src/components/Sidebar.tsx:119 | A link goes to the item's `href` when it is non-empty, and to `#` otherwise |
| NavTree.LinkTargetNonEmpty | frontend/src/components/Sidebar.tsx:174 | A link never points to the empty string |
| NavTree.CollapsedLinks | frontend/src/components/Sidebar.tsx:168-185 | The collapsed bar shows at most one link per top-level item |
| NavTree.CollapsedLinksAll | frontend/src/components/Sidebar.tsx:168-185 | When every top-level item has an icon, the collapsed bar shows all of them in order, each linking to its target and highlighted exactly when active |
| NavTree.CollapsedSkipsIconless | frontend/src/components/Sidebar.tsx:171 | An item without an icon is not shown in the collapsed bar |
| NavTree.TrafficPageActivatesReports | frontend/src/components/Sidebar.tsx:30-91 | On `/reports/analytics/traffic` the Reports group is active and highlighted, Analytics is active but not highlighted, and Dashboard is inactive |
| SidebarGenerator.NavItems | backend/src/utils/generators/sidebarGenerator.ts:12-28 | A Dashboard link to `/` first, then one group per model, in order: `1 + n` items |
| SidebarGenerator.NavItemIs | backend/src/utils/generators/sidebarGenerator.ts:12-28 | Every item of the generated list is the Dashboard link or the group of one of the models |
| SidebarGenerator.ModelGroup | backend/src/utils/generators/sidebarGenerator.ts:14-27 | A model's group is labelled with the capitalised name, has the users icon, no link of its own and two children, and links to exactly the model's list and create pages |
| SidebarGenerator.ModelGroupActiveIff | backend/src/utils/generators/sidebarGenerator.ts:41-71 | A model group is active, and so open by default with its trigger lit in the emitted sidebar, exactly on its model's list and create pages |
| SidebarGenerator.ModelGroupNeverHighlighted | frontend/src/components/Sidebar.tsx:87-88 | Under the hand-written sidebar's highlight rule, a group built like a generated one is never highlighted, because it is only active through a direct child (the emitted sidebar lights it whenever it is active) |
| SidebarGenerator.CollapsedTarget | backend/src/utils/generators/sidebarGenerator.ts:57 | Collapsed, an item without children links to its own `href`. A group links to one of its own links, or to nothing when its first child has no `href`. An empty group is still truthy, so reading its missing first child throws a `TypeError`, and the model fails exactly there |
| SidebarGenerator.CollapsedTargetsRouted | backend/src/utils/generators/sidebarGenerator.ts:12-28 | Collapsed, the emitted sidebar links the Dashboard to `/` and each model's group to that model's list page |
| SidebarGenerator.ProductGroup | backend/src/utils/generators/sidebarGenerator.ts:15-25 | The `product` group is labelled `Product`, with children `All Products` at `/products` and `Create Product` at `/product/create` |
| RoutesGenerator.ModelImports | backend/src/utils/generators/routesGenerator.ts:15-30 | Every model imports its table first, and also its form exactly when it is not a popup model |
| RoutesGenerator.ModelRoutes | backend/src/utils/generators/routesGenerator.ts:33-64 | A popup model gets one route, and a page model gets three: its list page showing its table first, then `/<lower>/create` and `/<lower>/edit/:id`, both showing its form |
| RoutesGenerator.RouteTree | backend/src/utils/generators/routesGenerator.ts:75-91 | `/login` first, then the layout at `/` whose children are the dashboard index followed by the model routes |
| RoutesGenerator.RoutesAppend | backend/src/utils/generators/routesGenerator.ts:33-65 | The model routes follow the order of the model entries |
| RoutesGenerator.Imports | backend/src/utils/generators/routesGenerator.ts:15-30 | The imports number `n + p` for `n` models of which `p` are page models |
| RoutesGenerator.ModelRouteList | backend/src/utils/generators/routesGenerator.ts:33-65 | The model routes number `n + 2p` for `n` models of which `p` are page models |
| RoutesGenerator.ImportsAppend | backend/src/utils/generators/routesGenerator.ts:15-30 | The imports follow the order of the model entries |
| RoutesGenerator.PageModelCount | backend/src/utils/generators/routesGenerator.ts:23 | There are never more page models than models |
| RoutesGenerator.ListRoutePresent | backend/src/utils/generators/routesGenerator.ts:40-43 | Every model has its list route showing its table |
| RoutesGenerator.FormRoutesPresent | backend/src/utils/generators/routesGenerator.ts:44-57 | Every page model has its create and edit routes in the route list, both showing its form |
| RoutesGenerator.HasPageModelCons | backend/src/utils/generators/routesGenerator.ts:23 | A page model with a given name is the first model or one of the later ones |
| RoutesGenerator.FormRoutedIff | backend/src/utils/generators/routesGenerator.ts:46-57 | A form page is routed exactly when some page model has that capitalised name |
| RoutesGenerator.FormImportedIff | backend/src/utils/generators/routesGenerator.ts:22-26 | A form is imported exactly when some page model has that capitalised name |
| RoutesGenerator.ModelRoutesMatchImports | backend/src/utils/generators/routesGenerator.ts:15-64 | The routes of one model show exactly the components it imports |
| RoutesGenerator.RoutesMatchImports | backend/src/utils/generators/routesGenerator.ts:15-65 | Every routed page is imported, and every imported component is shown by some route |
| AppRoutesGenerator.AppModelImports | backend/src/utils/generators/appRoutesGenerator.ts:11-15 | Each model imports its form, then its table, both named by the capitalised name |
| AppRoutesGenerator.AppImports | backend/src/utils/generators/appRoutesGenerator.ts:11-15 | Two imports per model |
| AppRoutesGenerator.AppModelRoutes | backend/src/utils/generators/appRoutesGenerator.ts:17-26 | Three routes per model, exactly the routes the newer generator gives a page model: its list page showing the table, and its create and edit pages showing the form |
| AppRoutesGenerator.AppRoutes | backend/src/utils/generators/appRoutesGenerator.ts:17-26 | Three routes per model |
| AppRoutesGenerator.AppRoutesElem | backend/src/utils/generators/appRoutesGenerator.ts:17 | The routes of the `i`-th model sit at positions `3i` to `3i + 2`, in the order of the model names |
| AppRoutesGenerator.AppRoutesAreAllPageRoutes | backend/src/utils/generators/appRoutesGenerator.ts:17-26 | The older generator's routes are exactly the newer generator's routes when no model is a popup model |
| AppRoutesGenerator.AppImportsSwapPairs | backend/src/utils/generators/appRoutesGenerator.ts:11-15 | The older generator imports the same components as the newer one would for page models, each model's pair in the opposite order |
| AppRoutesGenerator.PageModelCountAll | backend/src/utils/generators/appRoutesGenerator.ts:11-26 | With every model treated as a page model, all of them count as page models |
| Consistency.AppRouteBlock | backend/src/utils/generators/appRoutesGenerator.ts:22-24 | The `i`-th model's block holds its list, create and edit routes, in that order |
| Consistency.ModelPageRouted | backend/src/utils/generators/appRoutesGenerator.ts:22-23 | A model's list and create pages are routes of the older generator |
| Consistency.AppRoutesCover | backend/src/utils/generators/appRoutesGenerator.ts:17-26 | Each model's list, create and edit paths are routed by the older generator |
| Consistency.DashboardLinksRouted | backend/src/utils/generators/dashboardGenerator.ts:49 | Every dashboard card links to a page routed by either router, whatever the popup flags |
| Consistency.SidebarLinksRouted | backend/src/utils/generators/sidebarGenerator.ts:12-28 | Every link of the generated sidebar leads to `/` or to a page routed by the older generator |

## Left out

- **File system and console**: the existence test is a boolean input to `ExcelParser.ParseExcel`. Reading the workbook with the xlsx library, including skipping its metadata row, is foreign: sheets arrive as their name and rows. Every directory creation, file write and log line is I/O.
- **Cell values that are not strings**: the library can yield numbers or booleans. The source tests the raw cell for truthiness before it turns it into text with `String(...)`: `row.column &&`, `row.comments || ''`, `row.ui_component || 'text'`, `row.type || ''` and `row.is_null &&`. A cell is modelled as an optional string. A falsy value (`undefined`, `""`, `0`, `false`, `NaN`) stands as `None` or the empty string, both of which the model reads as falsy. Every other value stands as `Some(String(v))`. So the cell `0` is absent here, as it is in the source, even though `String(0)` is `"0"`.
- **Strings**: a Dafny string is a sequence of Unicode code points, while a JavaScript string is a sequence of UTF-16 code units. The two agree inside the Basic Multilingual Plane, where every character is one unit. Beyond it, the source's lengths, indexes, `charAt` and `slice` count two units per character, and its regexes see two halves.
- ExcelParser.IsRequired: a falsy `is_null` cell makes `required` the falsy cell value itself (`undefined`, `""`, `0`, `false` or `NaN`) rather than `false`. The model records `false`, which the form generators treat the same way.
- ExcelParser.ParseWorkbookSpec: JavaScript lists integer-like keys (such as a sheet named `12`) before all other keys, in numeric order. The model keeps plain insertion order for every key.
- ExcelParser.ParseWorkbookSpec: a sheet whose trimmed name is `__proto__` does not add a key, because `models[modelName] = fields` on a plain object replaces the record's prototype. The model adds an entry for that name like any other. `ExcelParser.AddSheet`, `ExcelParser.ParseWorkbook` and `ExcelParser.WorkbookKeys` share this gap.
- **Case mapping beyond ASCII**: `toUpperCase`/`toLowerCase` are modelled for ASCII letters only. Non-ASCII letters, and the special cases that change a string's length, are left out.
- **Emitted text**: the JSX, TypeScript and CSS the generators write are modelled by their structure (controls, columns, routes, imports, mock values), not as strings. Exact spacing, quoting and import path strings are out. So is the columns array's empty slot when there are no non-`id` fields, which only appears in the emitted text.
- ListPage.SanitizeFieldName: the replacement is modelled per code point. In the source the regex has no `u` flag, so a character outside the Basic Multilingual Plane is two code units and becomes two underscores: `"a😀b"` gives `"a__b"`, where the model gives `"a_b"`. The promise that the length is kept holds for code points only.
- ListPage.SanitizeSpec: its one-underscore-per-character claim holds inside the Basic Multilingual Plane only; beyond it, the source writes two underscores per character.
- ListPage.MockValueOf: the text of a mock string value is modelled as its prefix and number, not as the quoted string the template writes.
- ListPage.PrimaryDisplayField: on an empty field list the source dereferences `undefined` and throws. The model returns `None` there.
- **The older `App` routes**: the fixed routes around the generated ones in the older generator's template (its index element and layout) are template text and are not modelled.
- **Wiring of the generators**: the `Consistency` theorems assume that the dashboard, sidebar and router generators all receive the same list of model names, as their `string[]` parameters declare. The driver does not wire them that way. `backend/src/utils/generator.ts:59` passes the name list to the dashboard generator. Lines 56 and 68 pass the parsed record itself to `generateSidebar` and to the older `generateAppRoutes`, and `.map` on a plain object is not a function, so those calls throw. The theorems describe the generators as their signatures intend, not that driver.
- **Generator dispatch, the upload server, the frontend setup script and the template-only generators** (CSS, auth context, redux, API service, login, i18n, header, layout, app and main): these hold no input-dependent logic of this core.
- **The sidebar component's rendering**: open state, collapse button and styling are UI. Only the decisions that depend on the path are modelled: active, highlighted, link target and which items show when collapsed.

=== FILE: app_routes_generator.dfy ===
/**
 * The older router generator, which writes `<Route>` elements into the app
 * component: every model gets a form and a table import and three routes.
 */
module AppRoutesGenerator {
  import opened Text
  import Paths
  import opened RoutesGenerator

  function GeneratedSource(cap: string, suffix: string): string {
    "./components/generated/" + cap + suffix
  }

  /** The two imports of one model: its form, then its table. */
  function AppModelImports(name: string): (r: seq<Import>)
    ensures |r| == 2
    ensures r[0].component == Form(Capitalize(name)) && r[1].component == DataTable(Capitalize(name))
  {
    var cap := Capitalize(name);
    [Import(Form(cap), GeneratedSource(cap, "Form")), Import(DataTable(cap), GeneratedSource(cap, "DataTable"))]
  }

  function AppImports(modelNames: seq<string>): (r: seq<Import>)
    ensures |r| == 2 * |modelNames|
  {
    if modelNames == [] then []
    else AppModelImports(modelNames[0]) + AppImports(modelNames[1..])
  }

  /** The three routes of one model: list, create, edit, as the newer generator routes a page model. */
  function AppModelRoutes(name: string): (r: seq<Route>)
    ensures |r| == 3
    ensures r == ModelRoutes(name, ModelConfig(false))
  {
    var cap := Capitalize(name);
    [PathRoute(Paths.ListPath(name), Page(DataTable(cap))),
     PathRoute(Paths.CreatePath(name), Page(Form(cap))),
     PathRoute(Paths.EditPath(name), Page(Form(cap)))]
  }

  /** `routeTags`: three routes per model, in the order of `modelNames`. */
  function AppRoutes(modelNames: seq<string>): (r: seq<Route>)
    ensures |r| == 3 * |modelNames|
  {
    if modelNames == [] then []
    else AppModelRoutes(modelNames[0]) + AppRoutes(modelNames[1..])
  }

  /** Past a block of three, an index falls into what follows the block. */
  lemma BlockIndex<T>(head: seq<T>, tail: seq<T>, k: nat)
    requires |head| == 3 && 3 <= k < 3 + |tail|
    ensures (head + tail)[k] == tail[k - 3]
  {
  }

  /** The block of model `i` sits at positions `3i .. 3i+2`: its `j`-th route is at `3i + j`. */
  lemma {:induction false} AppRoutesElem(modelNames: seq<string>, i: nat, j: nat)
    requires i < |modelNames| && j < 3
    ensures 3 * i + j < |AppRoutes(modelNames)|
    ensures AppRoutes(modelNames)[3 * i + j] == AppModelRoutes(modelNames[i])[j]
  {
    var head, tail := AppModelRoutes(modelNames[0]), AppRoutes(modelNames[1..]);
    assert AppRoutes(modelNames) == head + tail;
    if i > 0 {
      AppRoutesElem(modelNames[1..], i - 1, j);
      BlockIndex(head, tail, 3 * i + j);
    }
  }

  /** Every model treated as a page model. */
  function AsPageModels(modelNames: seq<string>): (ms: Models)
    ensures |ms| == |modelNames|
    ensures forall i :: 0 <= i < |ms| ==> ms[i] == (modelNames[i], ModelConfig(false))
  {
    seq(|modelNames|, i requires 0 <= i < |modelNames| => (modelNames[i], ModelConfig(false)))
  }

  /** The older generator routes exactly as the newer one does when no model is a popup model. */
  lemma {:induction false} AppRoutesAreAllPageRoutes(modelNames: seq<string>)
    ensures AppRoutes(modelNames) == ModelRouteList(AsPageModels(modelNames))
  {
    if modelNames != [] {
      AppRoutesAreAllPageRoutes(modelNames[1..]);
      assert AsPageModels(modelNames)[1..] == AsPageModels(modelNames[1..]);
    }
  }

  /** It imports the same components as the newer one would, each model's pair in the opposite order. */
  lemma {:induction false} AppImportsSwapPairs(modelNames: seq<string>, i: nat)
    requires i < |modelNames|
    ensures var a, b := AppImports(modelNames), Imports(AsPageModels(modelNames));
      |a| == |b| && a[2 * i].component == b[2 * i + 1].component && a[2 * i + 1].component == b[2 * i].component
  {
    var ms := AsPageModels(modelNames);
    PageModelCountAll(modelNames);
    var a, b := AppImports(modelNames), Imports(ms);
    assert a == AppModelImports(modelNames[0]) + AppImports(modelNames[1..]);
    assert b == ModelImports(ms[0].0, ms[0].1) + Imports(ms[1..]);
    if i > 0 {
      assert ms[1..] == AsPageModels(modelNames[1..]);
      AppImportsSwapPairs(modelNames[1..], i - 1);
      assert a[2 * i] == AppImports(modelNames[1..])[2 * (i - 1)];
      assert a[2 * i + 1] == AppImports(modelNames[1..])[2 * (i - 1) + 1];
      assert b[2 * i] == Imports(ms[1..])[2 * (i - 1)];
      assert b[2 * i + 1] == Imports(ms[1..])[2 * (i - 1) + 1];
    }
  }

  lemma {:induction false} PageModelCountAll(modelNames: seq<string>)
    ensures PageModelCount(AsPageModels(modelNames)) == |modelNames|
  {
    if modelNames != [] {
      PageModelCountAll(modelNames[1..]);
      assert AsPageModels(modelNames)[1..] == AsPageModels(modelNames[1..]);
    }
  }
}

=== FILE: comment_options.dfy ===
/**
 * Options of a select or radio field, read from the spreadsheet's `comments`
 * cell. The source runs the global regex `/=>\s*['"]?([^,'"]+)['"]?/g` over the
 * comment and keeps the trimmed first group of every match; here that regex is
 * an explicit scanner, including its backtracking: when only whitespace follows
 * a `=>` before a comma, a quote or the end, the group is the last whitespace
 * character, which trims to the empty option.
 */
module CommentOptions {
  import opened Wrappers
  import opened Text

  predicate IsQuote(c: char) { c == '\'' || c == '"' }

  /** The character class `[^,'"]`. */
  predicate IsValueChar(c: char) { c != ',' && !IsQuote(c) }

  /** The literal `=>` starts at index `i`. */
  predicate ArrowAt(s: string, i: int) {
    0 <= i && i + 1 < |s| && s[i] == '=' && s[i + 1] == '>'
  }

  /** End of the greedy `\s*` run starting at `j`. */
  function WhitespaceEnd(s: string, j: nat): (k: nat)
    requires j <= |s|
    ensures j <= k <= |s|
    decreases |s| - j
  {
    if j < |s| && IsWhitespace(s[j]) then WhitespaceEnd(s, j + 1) else j
  }

  /** The run is all whitespace and stops at the first other character. */
  lemma {:induction false} WhitespaceRun(s: string, j: nat)
    requires j <= |s|
    ensures forall i :: j <= i < WhitespaceEnd(s, j) ==> IsWhitespace(s[i])
    ensures WhitespaceEnd(s, j) == |s| || !IsWhitespace(s[WhitespaceEnd(s, j)])
    decreases |s| - j
  {
    if j < |s| && IsWhitespace(s[j]) {
      WhitespaceRun(s, j + 1);
    }
  }

  /** End of the greedy `[^,'"]*` run starting at `j`. */
  function ValueEnd(s: string, j: nat): (k: nat)
    requires j <= |s|
    ensures j <= k <= |s|
    decreases |s| - j
  {
    if j < |s| && IsValueChar(s[j]) then ValueEnd(s, j + 1) else j
  }

  /** The run is all value characters and stops at the first other character. */
  lemma {:induction false} ValueRun(s: string, j: nat)
    requires j <= |s|
    ensures forall i :: j <= i < ValueEnd(s, j) ==> IsValueChar(s[i])
    ensures ValueEnd(s, j) == |s| || !IsValueChar(s[ValueEnd(s, j)])
    decreases |s| - j
  {
    if j < |s| && IsValueChar(s[j]) {
      ValueRun(s, j + 1);
    }
  }

  /** A run of value characters ended by the end or by another character is exactly what `ValueEnd` finds. */
  lemma {:induction false} ValueEndAt(s: string, j: nat, e: nat)
    requires j <= e <= |s|
    requires forall i :: j <= i < e ==> IsValueChar(s[i])
    requires e == |s| || !IsValueChar(s[e])
    ensures ValueEnd(s, j) == e
    decreases e - j
  {
    if j < e {
      ValueEndAt(s, j + 1, e);
    }
  }

  /** The trailing `['"]?`: one closing quote is consumed when present. */
  function SkipQuote(s: string, e: nat): (n: nat)
    requires e <= |s|
    ensures e <= n <= |s|
  {
    if e < |s| && IsQuote(s[e]) then e + 1 else e
  }

  /** The first group of one match, and where the next search starts (`lastIndex`). */
  datatype Capture = Capture(group: string, next: nat)

  /**
   * Matches `\s*['"]?([^,'"]+)['"]?` at index `j`, just after a `=>`. Greedy
   * choices are tried first; when the group cannot start after them, the engine
   * gives back the last whitespace character, which then forms the whole group.
   */
  function MatchAfterArrow(s: string, j: nat): (m: Option<Capture>)
    requires j <= |s|
    ensures m.Some? ==> j < m.value.next <= |s|
  {
    var k := WhitespaceEnd(s, j);
    if k + 1 < |s| && IsQuote(s[k]) && IsValueChar(s[k + 1]) then
      var e := ValueEnd(s, k + 1);
      Some(Capture(s[k + 1..e], SkipQuote(s, e)))
    else if k < |s| && IsValueChar(s[k]) then
      var e := ValueEnd(s, k);
      Some(Capture(s[k..e], SkipQuote(s, e)))
    else if j < k then
      Some(Capture(s[k - 1..k], SkipQuote(s, k)))
    else
      None
  }

  /** A captured group is non-empty and made of value characters only. */
  lemma MatchAfterArrowGroup(s: string, j: nat)
    requires j <= |s|
    ensures var m := MatchAfterArrow(s, j);
      m.Some? ==> m.value.group != [] && forall c :: c in m.value.group ==> IsValueChar(c)
  {
    var k := WhitespaceEnd(s, j);
    WhitespaceRun(s, j);
    if k + 1 < |s| && IsQuote(s[k]) && IsValueChar(s[k + 1]) {
      ValueRun(s, k + 1);
      var g := s[k + 1..ValueEnd(s, k + 1)];
      assert forall c :: c in g ==> IsValueChar(c) by {
        forall c | c in g ensures IsValueChar(c) {
          var i :| 0 <= i < |g| && g[i] == c;
          assert g[i] == s[k + 1 + i];
        }
      }
    } else if k < |s| && IsValueChar(s[k]) {
      ValueRun(s, k);
      var g := s[k..ValueEnd(s, k)];
      assert forall c :: c in g ==> IsValueChar(c) by {
        forall c | c in g ensures IsValueChar(c) {
          var i :| 0 <= i < |g| && g[i] == c;
          assert g[i] == s[k + i];
        }
      }
    } else if j < k {
      assert IsWhitespace(s[k - 1]);
      assert s[k - 1..k] == [s[k - 1]];
    }
  }

  /** An option as the parser returns it: trimmed, with no comma and no quote. */
  predicate IsCleanOption(o: string) {
    IsTrimmed(o) && forall i :: 0 <= i < |o| ==> IsValueChar(o[i])
  }

  lemma TrimmedGroupIsClean(group: string)
    requires forall c :: c in group ==> IsValueChar(c)
    ensures IsCleanOption(Trim(group))
  {
    TrimSpec(group);
    TrimSubset(group);
    var t := Trim(group);
    forall i | 0 <= i < |t|
      ensures IsValueChar(t[i])
    {
      assert t[i] in t;
    }
  }

  /** One `exec` call from `lastIndex == from`: the first `=>` whose tail matches. */
  function NextMatch(s: string, from: nat): (m: Option<Capture>)
    requires from <= |s|
    ensures m.Some? ==> from < m.value.next <= |s|
    decreases |s| - from
  {
    if from + 2 > |s| then None
    else if ArrowAt(s, from) && MatchAfterArrow(s, from + 2).Some? then MatchAfterArrow(s, from + 2)
    else NextMatch(s, from + 1)
  }

  /** The group of the next match, if any, is non-empty and made of value characters only. */
  lemma {:induction false} NextMatchGroup(s: string, from: nat)
    requires from <= |s|
    ensures var m := NextMatch(s, from);
      m.Some? ==> m.value.group != [] && forall c :: c in m.value.group ==> IsValueChar(c)
    decreases |s| - from
  {
    if from + 2 <= |s| {
      if ArrowAt(s, from) && MatchAfterArrow(s, from + 2).Some? {
        MatchAfterArrowGroup(s, from + 2);
      } else {
        NextMatchGroup(s, from + 1);
      }
    }
  }

  /**
   * Successive `exec` calls from index `from`: the first group of every match,
   * in order. Every group is non-empty and made of value characters only.
   */
  function ScanGroups(s: string, from: nat): (groups: seq<string>)
    requires from <= |s|
    ensures forall i :: 0 <= i < |groups| ==> groups[i] != [] && forall c :: c in groups[i] ==> IsValueChar(c)
    decreases |s| - from
  {
    match NextMatch(s, from)
    case None => []
    case Some(m) =>
      NextMatchGroup(s, from);
      var rest := ScanGroups(s, m.next);
      assert forall i :: 0 < i <= |rest| ==> ([m.group] + rest)[i] == rest[i - 1];
      [m.group] + rest
  }

  /** Groups of value characters trim to clean options. */
  lemma TrimmedGroupsClean(groups: seq<string>)
    requires forall i :: 0 <= i < |groups| ==> forall c :: c in groups[i] ==> IsValueChar(c)
    ensures forall i :: 0 <= i < |groups| ==> IsCleanOption(Trim(groups[i]))
  {
    forall i | 0 <= i < |groups|
      ensures IsCleanOption(Trim(groups[i]))
    {
      TrimmedGroupIsClean(groups[i]);
    }
  }

  /** The options pushed by the source, one per group: each group trimmed, so each clean. */
  function ScanOptions(s: string, from: nat): (options: seq<string>)
    requires from <= |s|
    ensures |options| == |ScanGroups(s, from)|
    ensures forall i :: 0 <= i < |options| ==> IsCleanOption(options[i])
  {
    var groups := ScanGroups(s, from);
    TrimmedGroupsClean(groups);
    seq(|groups|, i requires 0 <= i < |groups| => Trim(groups[i]))
  }

  /**
   * `parseOptionsFromComments`: `None` stands for `undefined`, returned for an
   * empty comment, a comment without `=>`, and a scan that collects nothing.
   */
  function ParseOptions(comment: string): (r: Option<seq<string>>)
    ensures comment == [] || !Contains(comment, "=>") ==> r == None
    ensures r.None? <==> comment == [] || !Contains(comment, "=>") || ScanGroups(comment, 0) == []
    ensures r.Some? ==> |r.value| > 0
    ensures r.Some? ==> forall i :: 0 <= i < |r.value| ==> IsCleanOption(r.value[i])
  {
    if comment == [] || !Contains(comment, "=>") then None
    else
      var options := ScanOptions(comment, 0);
      if |options| > 0 then Some(options) else None
  }

  // ---------------------------------------------------------------------------
  // Round trip: rendering `key => value` pairs and parsing them back

  /** A key with no `=>` inside it. */
  predicate CleanKey(k: string) {
    forall i :: 0 <= i < |k| ==> !ArrowAt(k, i)
  }

  /** A value the regex captures whole: non-empty, trimmed, without commas or quotes. */
  predicate CleanValue(v: string) {
    && v != []
    && (forall i :: 0 <= i < |v| ==> IsValueChar(v[i]))
    && !IsWhitespace(v[0]) && !IsWhitespace(v[|v| - 1])
  }

  /** `"k1 => v1, k2 => v2, ..."`, the comment format the generator documents. */
  function RenderPairs(pairs: seq<(string, string)>): string
    requires |pairs| > 0
  {
    var head := pairs[0].0 + " => " + pairs[0].1;
    if |pairs| == 1 then head else head + ", " + RenderPairs(pairs[1..])
  }

  function Values(pairs: seq<(string, string)>): (vs: seq<string>)
    ensures |vs| == |pairs|
    ensures forall i :: 0 <= i < |pairs| ==> vs[i] == pairs[i].1
  {
    if pairs == [] then [] else [pairs[0].1] + Values(pairs[1..])
  }

  /** A stretch without `=>` contributes nothing. */
  lemma {:induction false} MatchSkip(s: string, p: nat, q: nat)
    requires p <= q <= |s|
    requires forall i :: p <= i < q ==> !ArrowAt(s, i)
    ensures NextMatch(s, p) == NextMatch(s, q)
    decreases q - p
  {
    if p < q && p + 2 <= |s| {
      MatchSkip(s, p + 1, q);
    }
  }

  /** A `=>` followed by one space and a clean value matches exactly that value. */
  lemma ArrowThenValue(s: string, q: nat, v: string, e: nat)
    requires q + 3 <= e <= |s| && ArrowAt(s, q) && s[q + 2] == ' '
    requires CleanValue(v) && s[q + 3..e] == v
    requires e == |s| || s[e] == ','
    ensures NextMatch(s, q) == Some(Capture(v, e))
  {
    var vs := q + 3;
    assert WhitespaceEnd(s, q + 2) == vs by {
      assert IsWhitespace(s[q + 2]);
      assert s[vs] == v[0];
    }
    forall i | vs <= i < e
      ensures IsValueChar(s[i])
    {
      assert s[i] == v[i - vs];
    }
    ValueEndAt(s, vs, e);
    assert SkipQuote(s, e) == e;
    assert MatchAfterArrow(s, q + 2) == Some(Capture(v, e));
  }

  /** A match contributes its group; the scan resumes where the next search finds the same. */
  lemma ScanStep(s: string, p: nat, v: string, e: nat, f: nat)
    requires p <= |s| && e <= f <= |s|
    requires NextMatch(s, p) == Some(Capture(v, e))
    requires NextMatch(s, e) == NextMatch(s, f)
    ensures ScanFrom(s)(p) == [v] + ScanFrom(s)(f)
  {
    assert ScanGroups(s, e) == ScanGroups(s, f);
    assert ScanGroups(s, p) == [v] + ScanGroups(s, f);
  }

  /** A match that reaches the end of the comment is the last one. */
  lemma ScanLast(s: string, p: nat, v: string)
    requires p <= |s| && NextMatch(s, p) == Some(Capture(v, |s|))
    ensures ScanFrom(s)(p) == [v]
  {
    assert NextMatch(s, |s|) == None;
    assert ScanGroups(s, p) == [v];
  }

  /** A clean key followed by a space contributes nothing. */
  lemma KeySkip(s: string, p: nat, k: string)
    requires CleanKey(k) && p + |k| < |s|
    requires s[p..p + |k|] == k && s[p + |k|] == ' '
    ensures NextMatch(s, p) == NextMatch(s, p + |k| + 1)
  {
    NoArrowInKey(s, p, k);
    MatchSkip(s, p, p + |k| + 1);
  }

  /** No `=>` starts inside a clean key or on the space after it. */
  lemma NoArrowInKey(s: string, p: nat, k: string)
    requires CleanKey(k) && p + |k| < |s|
    requires s[p..p + |k|] == k && s[p + |k|] == ' '
    ensures forall i :: p <= i < p + |k| + 1 ==> !ArrowAt(s, i)
  {
    var q := p + |k| + 1;
    forall i | p <= i < q
      ensures !ArrowAt(s, i)
    {
      if i < q - 2 {
        assert !ArrowAt(k, i - p);
        assert s[i] == k[i - p] && s[i + 1] == k[i - p + 1];
      }
    }
  }

  /** One rendered pair `k => v`, ended by a comma or the end, yields `v`. */
  lemma ScanPair(s: string, p: nat, k: string, v: string, e: nat)
    requires CleanKey(k) && CleanValue(v)
    requires e == p + |k| + 4 + |v| <= |s|
    requires s[p..e] == k + " => " + v
    requires e == |s| || s[e] == ','
    ensures NextMatch(s, p) == Some(Capture(v, e))
  {
    var q := p + |k| + 1;
    assert s[p..p + |k|] == k && s[p + |k|] == ' ' by {
      var head := k + " => " + v;
      assert s[p..p + |k|] == head[..|k|];
      assert s[p + |k|] == head[|k|];
    }
    assert ArrowAt(s, q) && s[q + 2] == ' ' && s[q + 3..e] == v by {
      var head := k + " => " + v;
      assert s[q] == head[|k| + 1] && s[q + 1] == head[|k| + 2] && s[q + 2] == head[|k| + 3];
      assert s[q + 3..e] == head[|k| + 4..];
    }
    KeySkip(s, p, k);
    ArrowThenValue(s, q, v, e);
  }

  /** Where the first pair of a rendered list ends, and what follows it. */
  lemma RenderedHead(s: string, p: nat, pairs: seq<(string, string)>)
    requires |pairs| > 0
    requires p <= |s| && s[p..] == RenderPairs(pairs)
    ensures var e := p + |pairs[0].0| + 4 + |pairs[0].1|;
      && e <= |s|
      && s[p..e] == pairs[0].0 + " => " + pairs[0].1
      && (|pairs| == 1 ==> e == |s|)
      && (|pairs| > 1 ==> e + 2 <= |s| && s[e] == ',' && s[e + 1] == ' ' && s[e + 2..] == RenderPairs(pairs[1..]))
  {
    var head := pairs[0].0 + " => " + pairs[0].1;
    var e := p + |head|;
    var t := s[p..];
    if |pairs| == 1 {
      assert s[p..e] == t;
    } else {
      var rest := pairs[1..];
      assert t == head + ", " + RenderPairs(rest);
      assert s[p..e] == t[..|head|];
      assert s[e] == t[|head|] && s[e + 1] == t[|head| + 1];
      assert s[e + 2..] == t[|head| + 2..];
    }
  }

  /** Where a rendered pair `k => v` ends, counted from where it starts. */
  function PairEnd(p: nat, pair: (string, string)): nat {
    p + |pair.0| + 4 + |pair.1|
  }

  /**
   * The pairs are laid out in `s` from index `p` on, one pair at a time: each
   * `k => v` is followed by `", "` and the next pair, and the last one by the end.
   */
  predicate LaidOut(s: string, p: nat, pairs: seq<(string, string)>)
    decreases |pairs|
  {
    |pairs| > 0 &&
    var e := PairEnd(p, pairs[0]);
    && e <= |s|
    && s[p..e] == pairs[0].0 + " => " + pairs[0].1
    && (|pairs| == 1 ==> e == |s|)
    && (|pairs| > 1 ==> e + 2 <= |s| && s[e] == ',' && s[e + 1] == ' ' && LaidOut(s, e + 2, pairs[1..]))
  }

  /** A rendered list is laid out pair by pair. */
  lemma {:induction false} RenderedIsLaidOut(s: string, p: nat, pairs: seq<(string, string)>)
    requires |pairs| > 0
    requires p <= |s| && s[p..] == RenderPairs(pairs)
    ensures LaidOut(s, p, pairs)
    decreases |pairs|
  {
    RenderedHead(s, p, pairs);
    if |pairs| > 1 {
      RenderedIsLaidOut(s, PairEnd(p, pairs[0]) + 2, pairs[1..]);
      LaidOutCons(s, p, pairs);
    }
  }

  /** A first pair followed by `", "` and the rest laid out is a layout of all the pairs. */
  lemma LaidOutCons(s: string, p: nat, pairs: seq<(string, string)>)
    requires |pairs| > 1
    requires PairEnd(p, pairs[0]) + 2 <= |s|
    requires s[p..PairEnd(p, pairs[0])] == pairs[0].0 + " => " + pairs[0].1
    requires s[PairEnd(p, pairs[0])] == ',' && s[PairEnd(p, pairs[0]) + 1] == ' '
    requires LaidOut(s, PairEnd(p, pairs[0]) + 2, pairs[1..])
    ensures LaidOut(s, p, pairs)
  {
  }

  /** The scan started at each index of `s`. */
  function ScanFrom(s: string): nat -> seq<string> {
    (i: nat) => if i <= |s| then ScanGroups(s, i) else []
  }

  /**
   * Scanning laid-out pairs, pair by pair: the scan from each pair's start
   * yields its value, then resumes past the `", "` after it.
   */
  predicate ScanSteps(scan: nat -> seq<string>, p: nat, pairs: seq<(string, string)>)
    decreases |pairs|
  {
    |pairs| > 0 &&
    var e := PairEnd(p, pairs[0]);
    && (|pairs| == 1 ==> scan(p) == [pairs[0].1])
    && (|pairs| > 1 ==> scan(p) == [pairs[0].1] + scan(e + 2) && ScanSteps(scan, e + 2, pairs[1..]))
  }

  /** A scan that proceeds pair by pair collects exactly the pairs' values, in order. */
  lemma {:induction false} ScanChain(scan: nat -> seq<string>, p: nat, pairs: seq<(string, string)>)
    requires ScanSteps(scan, p, pairs)
    ensures scan(p) == Values(pairs)
    decreases |pairs|
  {
    ValuesCons(pairs);
    if |pairs| > 1 {
      ScanChain(scan, PairEnd(p, pairs[0]) + 2, pairs[1..]);
    }
  }

  /** Clean pairs laid out from `p` are scanned pair by pair. */
  lemma {:induction false} LaidOutChain(s: string, p: nat, pairs: seq<(string, string)>)
    requires LaidOut(s, p, pairs)
    requires forall i :: 0 <= i < |pairs| ==> CleanKey(pairs[i].0) && CleanValue(pairs[i].1)
    ensures ScanSteps(ScanFrom(s), p, pairs)
    decreases |pairs|
  {
    if |pairs| == 1 {
      LastPairScan(s, p, pairs);
    } else {
      FirstPairScan(s, p, pairs);
      LaidOutTail(s, p, pairs);
      LaidOutChain(s, PairEnd(p, pairs[0]) + 2, pairs[1..]);
      StepsCons(ScanFrom(s), p, pairs);
    }
  }

  /** The scan from the only pair of a layout yields its value. */
  lemma LastPairScan(s: string, p: nat, pairs: seq<(string, string)>)
    requires LaidOut(s, p, pairs) && |pairs| == 1
    requires CleanKey(pairs[0].0) && CleanValue(pairs[0].1)
    ensures ScanSteps(ScanFrom(s), p, pairs)
  {
    FirstPairMatch(s, p, pairs);
    ScanLast(s, p, pairs[0].1);
  }

  /** The scan from the first of several laid-out pairs yields its value, then resumes after the `", "`. */
  lemma FirstPairScan(s: string, p: nat, pairs: seq<(string, string)>)
    requires LaidOut(s, p, pairs) && |pairs| > 1
    requires CleanKey(pairs[0].0) && CleanValue(pairs[0].1)
    ensures ScanFrom(s)(p) == [pairs[0].1] + ScanFrom(s)(PairEnd(p, pairs[0]) + 2)
  {
    var e := PairEnd(p, pairs[0]);
    FirstPairMatch(s, p, pairs);
    SeparatorSkip(s, e);
    ScanStep(s, p, pairs[0].1, e, e + 2);
  }

  /** The pairs after the first are laid out after the `", "`. */
  lemma LaidOutTail(s: string, p: nat, pairs: seq<(string, string)>)
    requires LaidOut(s, p, pairs) && |pairs| > 1
    ensures LaidOut(s, PairEnd(p, pairs[0]) + 2, pairs[1..])
  {
  }

  /** One step in front of a pair-by-pair scan is a pair-by-pair scan. */
  lemma StepsCons(scan: nat -> seq<string>, p: nat, pairs: seq<(string, string)>)
    requires |pairs| > 1
    requires scan(p) == [pairs[0].1] + scan(PairEnd(p, pairs[0]) + 2)
    requires ScanSteps(scan, PairEnd(p, pairs[0]) + 2, pairs[1..])
    ensures ScanSteps(scan, p, pairs)
  {
  }

  /** The first pair's `=>` matches its value. */
  lemma FirstPairMatch(s: string, p: nat, pairs: seq<(string, string)>)
    requires LaidOut(s, p, pairs)
    requires CleanKey(pairs[0].0) && CleanValue(pairs[0].1)
    ensures NextMatch(s, p) == Some(Capture(pairs[0].1, PairEnd(p, pairs[0])))
  {
    ScanPair(s, p, pairs[0].0, pairs[0].1, PairEnd(p, pairs[0]));
  }

  /** The `", "` between two rendered pairs contributes nothing. */
  lemma SeparatorSkip(s: string, e: nat)
    requires e + 2 <= |s| && s[e] == ',' && s[e + 1] == ' '
    ensures NextMatch(s, e) == NextMatch(s, e + 2)
  {
    MatchSkip(s, e, e + 2);
  }

  lemma ValuesCons(pairs: seq<(string, string)>)
    requires |pairs| > 0
    ensures Values(pairs) == [pairs[0].1] + Values(pairs[1..])
    ensures |pairs| == 1 ==> Values(pairs) == [pairs[0].1]
  {
  }

  /** A comment with a `=>` somewhere passes the `includes("=>")` test. */
  lemma ArrowContains(s: string, q: nat)
    requires ArrowAt(s, q)
    ensures Contains(s, "=>")
  {
    assert s[q..q + 2] == "=>";
    ContainsAt(s, "=>", q);
  }

  /** The first rendered pair puts its `=>` right after the key and a space. */
  lemma RenderedArrow(pairs: seq<(string, string)>)
    requires |pairs| > 0
    ensures ArrowAt(RenderPairs(pairs), |pairs[0].0| + 1)
  {
    var s := RenderPairs(pairs);
    var q := |pairs[0].0| + 1;
    var head := pairs[0].0 + " => " + pairs[0].1;
    if |pairs| == 1 {
      assert s == head;
    } else {
      assert s == head + ", " + RenderPairs(pairs[1..]);
    }
    assert head[q] == '=' && head[q + 1] == '>';
  }

  /** Parsing a rendered list of clean pairs returns exactly its values, in order. */
  lemma ParseRenderedPairs(pairs: seq<(string, string)>)
    requires |pairs| > 0
    requires forall i :: 0 <= i < |pairs| ==> CleanKey(pairs[i].0) && CleanValue(pairs[i].1)
    ensures ParseOptions(RenderPairs(pairs)) == Some(Values(pairs))
  {
    var s := RenderPairs(pairs);
    RenderedArrow(pairs);
    ArrowContains(s, |pairs[0].0| + 1);
    assert s[0..] == s;
    RenderedIsLaidOut(s, 0, pairs);
    ScanLaidOut(s, pairs);
  }

  /** Clean pairs laid out over the whole comment are scanned back to their values. */
  lemma ScanLaidOut(s: string, pairs: seq<(string, string)>)
    requires LaidOut(s, 0, pairs)
    requires forall i :: 0 <= i < |pairs| ==> CleanKey(pairs[i].0) && CleanValue(pairs[i].1)
    ensures ScanOptions(s, 0) == Values(pairs)
  {
    LaidOutChain(s, 0, pairs);
    ScanChain(ScanFrom(s), 0, pairs);
    TrimmedGroups(s, 0, pairs);
  }

  /** Trimming groups that are already clean values changes nothing. */
  lemma TrimmedGroups(s: string, from: nat, pairs: seq<(string, string)>)
    requires from <= |s| && ScanGroups(s, from) == Values(pairs)
    requires forall i :: 0 <= i < |pairs| ==> CleanValue(pairs[i].1)
    ensures ScanOptions(s, from) == Values(pairs)
  {
    forall i | 0 <= i < |pairs|
      ensures Trim(pairs[i].1) == pairs[i].1
    {
      TrimOfTrimmed(pairs[i].1);
    }
  }

  /** The status comment from the generator's documentation, and the pairs it renders. */
  const StatusComment: string := "Y => Active, N => Inactive"

  const StatusPairs: seq<(string, string)> := [("Y", "Active"), ("N", "Inactive")]

  lemma StatusCommentRendersPairs()
    ensures RenderPairs(StatusPairs) == StatusComment
    ensures Values(StatusPairs) == ["Active", "Inactive"]
  {
  }

  lemma StatusPairsClean()
    ensures forall i :: 0 <= i < |StatusPairs| ==> CleanKey(StatusPairs[i].0) && CleanValue(StatusPairs[i].1)
  {
  }

  lemma StatusOptions()
    ensures ParseOptions(StatusComment) == Some(["Active", "Inactive"])
  {
    StatusCommentRendersPairs();
    StatusPairsClean();
    ParseRenderedPairs(StatusPairs);
  }
}

=== FILE: consistency.dfy ===
/**
 * How the generated pages fit together: every link the dashboard and the
 * generated sidebar offer leads to a route of the generated router.
 */
module Consistency {
  import Paths
  import Text
  import opened RoutesGenerator
  import opened AppRoutesGenerator
  import Dashboard
  import opened NavTree
  import SidebarGenerator

  /** Some route is a path route to `path`. */
  predicate HasPath(routes: seq<Route>, path: string) {
    exists r :: r in routes && r.PathRoute? && r.path == path
  }

  /** The block of model `i` in the older generator's routes, element by element. */
  lemma AppRouteBlock(modelNames: seq<string>, i: nat)
    requires i < |modelNames|
    ensures var rs, name := AppRoutes(modelNames), modelNames[i];
      && 3 * i + 2 < |rs|
      && rs[3 * i] == PathRoute(Paths.ListPath(name), Page(DataTable(Text.Capitalize(name))))
      && rs[3 * i + 1] == PathRoute(Paths.CreatePath(name), Page(Form(Text.Capitalize(name))))
      && rs[3 * i + 2] == PathRoute(Paths.EditPath(name), Page(Form(Text.Capitalize(name))))
  {
    AppRoutesElem(modelNames, i, 0);
    AppRoutesElem(modelNames, i, 1);
    AppRoutesElem(modelNames, i, 2);
  }

  /** Each model's three pages are routes of the older generator. */
  lemma AppRoutesCover(modelNames: seq<string>, i: nat)
    requires i < |modelNames|
    ensures HasPath(AppRoutes(modelNames), Paths.ListPath(modelNames[i]))
    ensures HasPath(AppRoutes(modelNames), Paths.CreatePath(modelNames[i]))
    ensures HasPath(AppRoutes(modelNames), Paths.EditPath(modelNames[i]))
  {
    var rs := AppRoutes(modelNames);
    AppRouteBlock(modelNames, i);
    assert rs[3 * i] in rs && rs[3 * i + 1] in rs && rs[3 * i + 2] in rs;
  }

  /** Each model's list page is a route of the newer generator. */
  lemma ListPathRouted(models: Models, i: nat)
    requires i < |models|
    ensures HasPath(ModelRouteList(models), Paths.ListPath(models[i].0))
  {
    ListRoutePresent(models, i);
  }

  /** A dashboard card links to a page the older generator routes. */
  lemma CardRoutedInApp(modelNames: seq<string>, i: nat)
    requires i < |modelNames|
    ensures HasPath(AppRoutes(modelNames), Dashboard.DashboardItems(modelNames)[i].href)
  {
    Dashboard.CardLinksToList(modelNames, i);
    AppRoutesCover(modelNames, i);
  }

  /** A dashboard card links to a page the newer generator routes, whatever the models' configurations. */
  lemma CardRoutedInRouter(modelNames: seq<string>, configs: seq<ModelConfig>, i: nat)
    requires i < |modelNames| == |configs|
    ensures var models := seq(|modelNames|, k requires 0 <= k < |modelNames| => (modelNames[k], configs[k]));
      HasPath(ModelRouteList(models), Dashboard.DashboardItems(modelNames)[i].href)
  {
    Dashboard.CardLinksToList(modelNames, i);
    var models := seq(|modelNames|, k requires 0 <= k < |modelNames| => (modelNames[k], configs[k]));
    ListPathRouted(models, i);
  }

  /** Every dashboard card links to a routed list page, under either router. */
  lemma DashboardLinksRouted(modelNames: seq<string>, configs: seq<ModelConfig>, i: nat)
    requires i < |modelNames| == |configs|
    ensures HasPath(AppRoutes(modelNames), Dashboard.DashboardItems(modelNames)[i].href)
    ensures var models := seq(|modelNames|, k requires 0 <= k < |modelNames| => (modelNames[k], configs[k]));
      HasPath(ModelRouteList(models), Dashboard.DashboardItems(modelNames)[i].href)
  {
    CardRoutedInApp(modelNames, i);
    CardRoutedInRouter(modelNames, configs, i);
  }

  /** The links of a model's sidebar group are its list and create pages. */
  lemma GroupLinks(name: string, pathname: string)
    requires pathname in Hrefs(SidebarGenerator.ModelGroup(name))
    ensures pathname == Paths.ListPath(name) || pathname == Paths.CreatePath(name)
  {
  }

  /** The only link of the sidebar's first item is the dashboard. */
  lemma DashboardItemLinks(pathname: string)
    requires pathname in Hrefs(SidebarGenerator.DashboardItem)
    ensures pathname == "/"
  {
  }

  /** A model's list and create pages are routes of the older generator. */
  lemma ModelPageRouted(modelNames: seq<string>, i: nat, pathname: string)
    requires i < |modelNames|
    requires pathname == Paths.ListPath(modelNames[i]) || pathname == Paths.CreatePath(modelNames[i])
    ensures HasPath(AppRoutes(modelNames), pathname)
  {
    AppRoutesCover(modelNames, i);
  }

  /** Every link in the generated sidebar leads to the dashboard or a page routed by the older generator. */
  lemma SidebarLinksRouted(modelNames: seq<string>, item: NavItem, pathname: string)
    requires item in SidebarGenerator.NavItems(modelNames) && pathname in Hrefs(item)
    ensures pathname == "/" || HasPath(AppRoutes(modelNames), pathname)
  {
    SidebarGenerator.NavItemIs(modelNames, item);
    if item == SidebarGenerator.DashboardItem {
      DashboardItemLinks(pathname);
    } else {
      var i :| 0 <= i < |modelNames| && item == SidebarGenerator.ModelGroup(modelNames[i]);
      GroupLinks(modelNames[i], pathname);
      ModelPageRouted(modelNames, i, pathname);
    }
  }
}

=== FILE: dashboard.dfy ===
/**
 * The dashboard page's data: the keyword-to-icon table, the list of icons to
 * import, the icon chosen for a model, and one card per model.
 */
module Dashboard {
  import opened Wrappers
  import opened Text
  import Paths

  /** `iconKeywordMap`, in its insertion order, which is the order `for ... in` visits it. */
  const IconKeywordMap: seq<(string, string)> := [
    ("user", "Users"),
    ("product", "Package"),
    ("order", "ShoppingCart"),
    ("category", "Shapes"),
    ("brand", "Award"),
    ("voucher", "Gift"),
    ("coupon", "Ticket"),
    ("contact", "Phone"),
    ("page", "FileText"),
    ("template", "LayoutTemplate"),
    ("admin", "UserCog"),
    ("catalogue", "BookOpen"),
    ("group", "UserCog"),
    ("history", "History")
  ]

  const DefaultIcon: string := "LayoutGrid"

  function IconValues(table: seq<(string, string)>): (vs: seq<string>)
    ensures |vs| == |table|
    ensures forall i :: 0 <= i < |table| ==> vs[i] == table[i].1
  {
    seq(|table|, i requires 0 <= i < |table| => table[i].1)
  }

  /** `[...new Set(Object.values(iconKeywordMap))]`. */
  function AllIcons(): (icons: seq<string>)
    ensures Distinct(icons)
    ensures forall x :: x in icons <==> x in IconValues(IconKeywordMap)
  {
    Dedup(IconValues(IconKeywordMap))
  }

  /** Index of the first keyword at or after `from` that occurs in `lowerName`. */
  function FirstKeyword(lowerName: string, table: seq<(string, string)>, from: nat): (r: Option<nat>)
    requires from <= |table|
    ensures r.Some? ==>
              && from <= r.value < |table|
              && Contains(lowerName, table[r.value].0)
              && forall j :: from <= j < r.value ==> !Contains(lowerName, table[j].0)
    ensures r.None? ==> forall j :: from <= j < |table| ==> !Contains(lowerName, table[j].0)
    decreases |table| - from
  {
    if from == |table| then None
    else if Contains(lowerName, table[from].0) then Some(from)
    else FirstKeyword(lowerName, table, from + 1)
  }

  /** `getIconForModel`: the icon of a keyword that occurs in the name, or the default. */
  function IconForModel(modelName: string): (icon: string)
    ensures icon == DefaultIcon || icon in IconValues(IconKeywordMap)
    ensures icon != DefaultIcon ==>
      exists i :: 0 <= i < |IconKeywordMap| && Contains(Lower(modelName), IconKeywordMap[i].0) && icon == IconKeywordMap[i].1
  {
    match FirstKeyword(Lower(modelName), IconKeywordMap, 0)
    case Some(i) =>
      assert IconValues(IconKeywordMap)[i] == IconKeywordMap[i].1;
      IconKeywordMap[i].1
    case None => DefaultIcon
  }

  /**
   * The icon is that of the first keyword, in table order, that occurs in the
   * lower-cased name; the default icon when none does.
   */
  lemma IconForModelSpec(modelName: string)
    ensures var lower := Lower(modelName);
      (IconForModel(modelName) == DefaultIcon <==> forall j :: 0 <= j < |IconKeywordMap| ==> !Contains(lower, IconKeywordMap[j].0))
      && (IconForModel(modelName) != DefaultIcon ==>
        exists i :: 0 <= i < |IconKeywordMap| && Contains(lower, IconKeywordMap[i].0)
          && IconForModel(modelName) == IconKeywordMap[i].1
          && forall j :: 0 <= j < i ==> !Contains(lower, IconKeywordMap[j].0))
  {
    assert DefaultIcon !in IconValues(IconKeywordMap);
  }

  /** Matching does not see the case of the model name. */
  lemma IconIgnoresCase(modelName: string)
    ensures IconForModel(Upper(modelName)) == IconForModel(modelName)
    ensures IconForModel(Lower(modelName)) == IconForModel(modelName)
  {
    LowerOfUpper(modelName);
    LowerIdempotent(modelName);
  }

  /** Every chosen icon is imported: it is one of `allIcons` or the default. */
  lemma IconIsImported(modelName: string)
    ensures IconForModel(modelName) in AllIcons() || IconForModel(modelName) == DefaultIcon
  {
    match FirstKeyword(Lower(modelName), IconKeywordMap, 0)
    case Some(i) =>
      assert IconValues(IconKeywordMap)[i] == IconKeywordMap[i].1;
    case None =>
  }

  /** The distinct icons, in order of first appearance in the table. */
  const DistinctIcons: seq<string> := [
    "Users", "Package", "ShoppingCart", "Shapes", "Award", "Gift", "Ticket",
    "Phone", "FileText", "LayoutTemplate", "UserCog", "BookOpen", "History"]

  lemma DistinctIconsDistinct()
    ensures Distinct(DistinctIcons)
  {
  }

  /** The table's values are the distinct icons with `UserCog` repeated before the last one. */
  lemma IconValuesLayout()
    ensures IconValues(IconKeywordMap) == DistinctIcons[..12] + ["UserCog"] + ["History"]
  {
  }

  /** `UserCog` is the value of two keywords but is imported once; thirteen icons in all. */
  lemma AllIconsOnce()
    ensures IconKeywordMap[10].1 == IconKeywordMap[12].1 == "UserCog"
    ensures AllIcons() == DistinctIcons
    ensures |AllIcons()| == 13
  {
    var head := DistinctIcons[..12];
    IconValuesLayout();
    DistinctIconsDistinct();
    assert Distinct(head);
    assert "UserCog" in head by {
      assert head[10] == "UserCog";
    }
    assert "History" !in head by {
      assert DistinctIcons[12] == "History";
    }
    DedupRepeatThenNew(head, "UserCog", "History");
    assert head + ["History"] == DistinctIcons;
  }

  /** A repeat-free list followed by a repeat of one of its elements and a new element de-duplicates to the list and the new element. */
  lemma DedupRepeatThenNew(head: seq<string>, again: string, added: string)
    requires Distinct(head) && again in head && added !in head
    ensures Dedup(head + [again] + [added]) == head + [added]
  {
    DedupDistinct(head);
    DedupSnoc(head, again);
    assert added !in head + [again];
    DedupSnoc(head + [again], added);
  }

  /** A list without repeats is its own de-duplication. */
  lemma {:induction false} DedupDistinct(xs: seq<string>)
    requires Distinct(xs)
    ensures Dedup(xs) == xs
  {
    if xs != [] {
      var init := xs[..|xs| - 1];
      DedupDistinct(init);
      assert xs == init + [xs[|xs| - 1]];
      DedupSnoc(init, xs[|xs| - 1]);
    }
  }

  /** `user` precedes `admin` in the table, so `admin_user` gets the users icon. */
  lemma AdminUserIcon()
    ensures IconForModel("admin_user") == "Users"
  {
    var lower := Lower("admin_user");
    assert lower == "admin_user";
    assert OccursAt(lower, "user", 6);
    ContainsAt(lower, "user", 6);
  }

  /** A name in which no keyword occurs, whatever its case, gets the default grid icon. */
  lemma NoKeywordIcon(modelName: string)
    requires forall j | 0 <= j < |IconKeywordMap| :: !Contains(Lower(modelName), IconKeywordMap[j].0)
    ensures IconForModel(modelName) == DefaultIcon
  {
    IconForModelSpec(modelName);
  }

  // ---------------------------------------------------------------------------
  // Dashboard cards

  datatype DashboardItem = DashboardItem(lbl: string, href: string, icon: string)

  /** `capitalize(name).replace(/_/g, ' ')`. */
  function CardLabel(name: string): (r: string)
    ensures |r| == |name| && '_' !in r
  {
    ReplaceCharRemoves(Capitalize(name), '_', ' ');
    ReplaceChar(Capitalize(name), '_', ' ')
  }

  /** `modelNames.map(...)`: one card per model, in order. */
  function DashboardItems(modelNames: seq<string>): (items: seq<DashboardItem>)
    ensures |items| == |modelNames|
    ensures forall i :: 0 <= i < |modelNames| ==>
      items[i] == DashboardItem(CardLabel(modelNames[i]), Paths.ListPath(modelNames[i]), IconForModel(modelNames[i]))
  {
    seq(|modelNames|, i requires 0 <= i < |modelNames| =>
      DashboardItem(CardLabel(modelNames[i]), Paths.ListPath(modelNames[i]), IconForModel(modelNames[i])))
  }

  /** Card `i` links to the list page of model `i`. */
  lemma CardLinksToList(modelNames: seq<string>, i: nat)
    requires i < |modelNames|
    ensures DashboardItems(modelNames)[i].href == Paths.ListPath(modelNames[i])
  {
  }

  /** Cards of two different models link to different pages unless the names differ only in case. */
  lemma DashboardHrefsDistinct(modelNames: seq<string>, i: nat, j: nat)
    requires i < j < |modelNames| && Lower(modelNames[i]) != Lower(modelNames[j])
    ensures DashboardItems(modelNames)[i].href != DashboardItems(modelNames)[j].href
  {
    Paths.ListPathInjective(modelNames[i], modelNames[j]);
  }
}

=== FILE: excel_parser.dfy ===
/**
 * The spreadsheet normaliser: each sheet of the workbook describes one model,
 * each row of a sheet one field. Rows are taken as already read by the xlsx
 * library (the first metadata row skipped), every cell either absent or the
 * string the source obtains with `String(...)`.
 */
module ExcelParser {
  import opened Wrappers
  import opened Text
  import Labels
  import CommentOptions

  // ---------------------------------------------------------------------------
  // Rows and fields

  /** One spreadsheet row; a cell is absent when the sheet leaves it blank. */
  datatype Row = Row(
    column: Option<string>,
    dbType: Option<string>,
    uiComponent: Option<string>,
    isNull: Option<string>,
    comments: Option<string>)

  /** The zod schema type of a field. */
  datatype ZodType = StringType | NumberType | BooleanType | DateType | AnyType

  /** The form control of a field. */
  datatype UiType = Input | Textarea | Select | Checkbox | Radio | File | Color

  datatype Field = Field(
    fieldName: string,
    lbl: string,
    dataType: string,
    zodType: ZodType,
    uiType: UiType,
    required: bool,
    options: Option<seq<string>>,
    placeholder: string,
    description: Option<string>)

  /** A cell is truthy when present and not the empty string. */
  predicate Truthy(cell: Option<string>) {
    cell.Some? && cell.value != []
  }

  /** `cell || default`: the empty string counts as absent. */
  function CellOr(cell: Option<string>, default: string): (r: string)
    ensures Truthy(cell) ==> r == cell.value
    ensures !Truthy(cell) ==> r == default
  {
    if Truthy(cell) then cell.value else default
  }

  /** A database type the source treats as numeric. */
  predicate IsNumericDb(dbType: string) {
    Contains(dbType, "int") || dbType == "decimal" || dbType == "double"
  }

  predicate IsDateDb(dbType: string) {
    dbType == "date" || dbType == "datetime"
  }

  /**
   * The zod type, by fixed precedence over the lower-cased db type and widget:
   * a numeric column decides alone, and every other type is chosen by the cell
   * that names it.
   */
  function InferZodType(dbType: string, uiComponent: string): (z: ZodType)
    ensures z == NumberType <==> IsNumericDb(dbType)
    ensures z == BooleanType ==> uiComponent == "switch"
    ensures z == DateType ==> IsDateDb(dbType) && uiComponent != "switch"
    ensures z == AnyType ==> uiComponent == "file_upload" && !IsDateDb(dbType)
    ensures z == StringType ==>
      !IsDateDb(dbType) && uiComponent != "switch" && uiComponent != "file_upload"
  {
    if IsNumericDb(dbType) then NumberType
    else if uiComponent == "switch" then BooleanType
    else if IsDateDb(dbType) then DateType
    else if uiComponent == "file_upload" then AnyType
    else StringType
  }

  /** The widget name that selects a control; an input is what every other name gets. */
  function WidgetName(t: UiType): Option<string> {
    match t
    case Input => None
    case Select => Some("dropdown")
    case Radio => Some("radio")
    case Checkbox => Some("switch")
    case File => Some("file_upload")
    case Textarea => Some("tinymce")
    case Color => Some("color_picker")
  }

  /**
   * The `switch (uiComponent)` table: a listed widget gets the control it
   * names, and anything unlisted is an input.
   */
  function MapUiType(uiComponent: string): (t: UiType)
    ensures t != Input ==> WidgetName(t) == Some(uiComponent)
    ensures t == Input ==> forall u: UiType :: u != Input ==> WidgetName(u) != Some(uiComponent)
  {
    match uiComponent
    case "dropdown" => Select
    case "radio" => Radio
    case "switch" => Checkbox
    case "file_upload" => File
    case "tinymce" => Textarea
    case "color_picker" => Color
    case _ => Input
  }

  /**
   * The `filter`: a row is kept when its `column` cell is truthy and not all
   * whitespace, that is, when the cell holds a character other than whitespace.
   */
  predicate KeepRow(row: Row): (keep: bool)
    ensures keep <==>
      row.column.Some? && exists i :: 0 <= i < |row.column.value| && !IsWhitespace(row.column.value[i])
  {
    TrimEmptyIff(row.column.GetOr([]));
    Truthy(row.column) && Trim(row.column.value) != []
  }

  /** `row.is_null && String(row.is_null).trim().toUpperCase() === 'N'`, a falsy value read as false. */
  predicate IsRequired(isNull: Option<string>): (req: bool)
    ensures req <==> isNull.Some? && (Trim(isNull.value) == "N" || Trim(isNull.value) == "n")
  {
    UpperIsN(Trim(isNull.GetOr([])));
    Truthy(isNull) && Upper(Trim(isNull.value)) == "N"
  }

  /** The widget name the tables read: lower-cased, `text` when the cell is missing or empty. */
  function WidgetOf(row: Row): string {
    Lower(CellOr(row.uiComponent, "text"))
  }

  /** The database type the tables read: lower-cased, empty when the cell is missing. */
  function DbTypeOf(row: Row): string {
    Lower(CellOr(row.dbType, ""))
  }

  /** The `map` callback: one kept row becomes one field. */
  function NormaliseRow(row: Row): (f: Field)
    requires KeepRow(row)
    ensures f.fieldName == Trim(row.column.value) && f.fieldName != [] && IsTrimmed(f.fieldName)
    ensures f.lbl == Labels.CreateLabel(f.fieldName)
    ensures f.placeholder == "Enter " + f.lbl + "..."
    ensures f.dataType == DbTypeOf(row)
    ensures f.zodType == InferZodType(DbTypeOf(row), WidgetOf(row))
    ensures f.uiType == MapUiType(WidgetOf(row))
    ensures f.required == IsRequired(row.isNull)
    ensures f.options == CommentOptions.ParseOptions(CellOr(row.comments, ""))
    ensures f.options.Some? <==> f.description.None?
    ensures f.description.Some? ==> f.description.value == CellOr(row.comments, "")
    ensures f.options.Some? ==> |f.options.value| > 0
  {
    var fieldName := Trim(row.column.value);
    var comments := CellOr(row.comments, "");
    var uiComponent := WidgetOf(row);
    var dbType := DbTypeOf(row);
    var options := CommentOptions.ParseOptions(comments);
    TrimSpec(row.column.value);
    Field(
      fieldName,
      Labels.CreateLabel(fieldName),
      dbType,
      InferZodType(dbType, uiComponent),
      MapUiType(uiComponent),
      IsRequired(row.isNull),
      options,
      "Enter " + Labels.CreateLabel(fieldName) + "...",
      if options.None? then Some(comments) else None)
  }

  /** The rows the filter keeps, in order. */
  function KeptRows(rows: seq<Row>): (r: seq<Row>)
    ensures |r| <= |rows|
    ensures forall i :: 0 <= i < |r| ==> KeepRow(r[i]) && r[i] in rows
  {
    if rows == [] then []
    else if KeepRow(rows[0]) then [rows[0]] + KeptRows(rows[1..])
    else KeptRows(rows[1..])
  }

  /** `rawRows.filter(...).map(...)`. */
  function ParseRows(rows: seq<Row>): (fields: seq<Field>)
    ensures |fields| <= |rows|
    ensures forall i :: 0 <= i < |fields| ==> fields[i].fieldName != [] && IsTrimmed(fields[i].fieldName)
  {
    MapRows(NormaliseRow, KeptRows(rows))
  }

  /** `rows.map(f)`: one result per row, in order. */
  function MapRows(f: Row --> Field, rows: seq<Row>): (r: seq<Field>)
    requires forall i :: 0 <= i < |rows| ==> f.requires(rows[i])
    ensures |r| == |rows|
    ensures forall i :: 0 <= i < |rows| ==> r[i] == f(rows[i])
  {
    seq(|rows|, i requires 0 <= i < |rows| => f(rows[i]))
  }

  /** Mapping distributes over concatenation. */
  lemma MapRowsAppend(f: Row --> Field, a: seq<Row>, b: seq<Row>)
    requires forall i :: 0 <= i < |a| ==> f.requires(a[i])
    requires forall i :: 0 <= i < |b| ==> f.requires(b[i])
    ensures MapRows(f, a + b) == MapRows(f, a) + MapRows(f, b)
  {
  }

  // ---------------------------------------------------------------------------
  // Properties of one field

  /** The widget and schema tables agree: a switch is a boolean checkbox unless its column is numeric. */
  lemma SwitchIsBooleanCheckbox(dbType: string, uiComponent: string)
    ensures InferZodType(dbType, uiComponent) == BooleanType <==> uiComponent == "switch" && !IsNumericDb(dbType)
    ensures MapUiType(uiComponent) == Checkbox <==> uiComponent == "switch"
  {
  }

  /** Only a file widget is given the `any` schema, and then only for a non-numeric, non-date column. */
  lemma AnyOnlyForFiles(dbType: string, uiComponent: string)
    ensures InferZodType(dbType, uiComponent) == AnyType
      <==> MapUiType(uiComponent) == File && !IsNumericDb(dbType) && !IsDateDb(dbType)
  {
  }

  /** A numeric column wins over every widget. */
  lemma NumericWins(dbType: string, uiComponent: string)
    requires IsNumericDb(dbType)
    ensures forall w :: InferZodType(dbType, w) == NumberType
  {
  }

  /** A missing or empty widget cell defaults to `text`, which is an input of type string unless the column says otherwise. */
  lemma MissingWidgetIsInput(row: Row)
    requires !Truthy(row.uiComponent) && KeepRow(row)
    ensures NormaliseRow(row).uiType == Input
    ensures NormaliseRow(row).zodType in {StringType, NumberType, DateType}
  {
    assert WidgetOf(row) == "text" by {
      assert CellOr(row.uiComponent, "text") == "text";
    }
    var w := WidgetOf(row);
    assert w != "switch" && w != "file_upload" && MapUiType(w) == Input;
  }

  /** Upper-casing a string gives `N` exactly when the string is `N` or `n`. */
  lemma UpperIsN(t: string)
    ensures Upper(t) == "N" <==> t == "N" || t == "n"
  {
    if Upper(t) == "N" {
      assert |t| == 1;
      assert Upper(t)[0] == ToUpperChar(t[0]) == 'N';
      assert t == [t[0]];
    }
  }

  /** A field is required exactly when the `is_null` cell, trimmed, is `N` or `n`. */
  lemma RequiredIff(row: Row)
    requires KeepRow(row)
    ensures NormaliseRow(row).required
      <==> row.isNull.Some? && (Trim(row.isNull.value) == "N" || Trim(row.isNull.value) == "n")
  {
    if row.isNull.Some? {
      UpperIsN(Trim(row.isNull.value));
    }
  }

  /** Without `=>` in the comment there are no options and the comment becomes the description. */
  lemma PlainCommentIsDescription(row: Row)
    requires KeepRow(row)
    requires !Contains(CellOr(row.comments, ""), "=>")
    ensures NormaliseRow(row).options == None
    ensures NormaliseRow(row).description == Some(CellOr(row.comments, ""))
  {
  }

  // ---------------------------------------------------------------------------
  // Properties of the row filter

  /** The filter distributes over concatenation. */
  lemma {:induction false} KeptRowsAppend(a: seq<Row>, b: seq<Row>)
    ensures KeptRows(a + b) == KeptRows(a) + KeptRows(b)
  {
    if a == [] {
      assert a + b == b;
    } else {
      assert (a + b)[1..] == a[1..] + b;
      KeptRowsAppend(a[1..], b);
    }
  }

  /** Filtering and mapping distribute over concatenation, so row order is kept. */
  lemma ParseRowsAppend(a: seq<Row>, b: seq<Row>)
    ensures ParseRows(a + b) == ParseRows(a) + ParseRows(b)
  {
    KeptRowsAppend(a, b);
    MapRowsAppend(NormaliseRow, KeptRows(a), KeptRows(b));
  }

  /** Each kept row yields exactly its own field, and a dropped row yields nothing. */
  lemma ParseRowsSingle(row: Row)
    ensures ParseRows([row]) == if KeepRow(row) then [NormaliseRow(row)] else []
  {
    assert KeptRows([row]) == if KeepRow(row) then [row] else [];
  }

  /** A sheet yields no field exactly when every `column` cell is missing, empty or blank. */
  lemma {:induction false} ParseRowsEmptyIff(rows: seq<Row>)
    ensures ParseRows(rows) == [] <==> forall i :: 0 <= i < |rows| ==> !KeepRow(rows[i])
  {
    KeptRowsEmptyIff(rows);
  }

  lemma {:induction false} KeptRowsEmptyIff(rows: seq<Row>)
    ensures KeptRows(rows) == [] <==> forall i :: 0 <= i < |rows| ==> !KeepRow(rows[i])
  {
    if rows != [] {
      KeptRowsEmptyIff(rows[1..]);
      if KeptRows(rows) == [] {
        forall i | 0 <= i < |rows|
          ensures !KeepRow(rows[i])
        {
          if i > 0 {
            assert rows[i] == rows[1..][i - 1];
          }
        }
      }
    }
  }

  // ---------------------------------------------------------------------------
  // Workbook assembly

  /** A sheet as the workbook lists it: its name and its rows. */
  type Sheet = (string, seq<Row>)

  /** `Record<string, Field[]>`: entries in insertion order, keys distinct. */
  datatype Entry = Entry(name: string, fields: seq<Field>)

  function Names(models: seq<Entry>): (ns: seq<string>)
    ensures |ns| == |models|
    ensures forall i :: 0 <= i < |models| ==> ns[i] == models[i].name
  {
    if models == [] then [] else [models[0].name] + Names(models[1..])
  }

  /** `models[name]`. */
  function Lookup(models: seq<Entry>, name: string): (r: Option<seq<Field>>)
    ensures r.None? <==> name !in Names(models)
  {
    if models == [] then None
    else if models[0].name == name then Some(models[0].fields)
    else Lookup(models[1..], name)
  }

  /**
   * `models[name] = fields`: an existing key keeps its position and takes the
   * new value; a new key is appended.
   */
  function Assign(models: seq<Entry>, name: string, fields: seq<Field>): (r: seq<Entry>)
    ensures Names(r) == if name in Names(models) then Names(models) else Names(models) + [name]
    ensures Lookup(r, name) == Some(fields)
    ensures forall n :: n != name ==> Lookup(r, n) == Lookup(models, n)
  {
    if models == [] then [Entry(name, fields)]
    else if models[0].name == name then [Entry(name, fields)] + models[1..]
    else [models[0]] + Assign(models[1..], name, fields)
  }

  /**
   * One iteration of the sheet loop: the record is unchanged or gains the
   * sheet's new, non-empty trimmed name as its last key; no other key changes.
   */
  function AddSheet(models: seq<Entry>, sheet: Sheet): (r: seq<Entry>)
    ensures Names(r) == Names(models)
      || (Trim(sheet.0) != [] && Trim(sheet.0) !in Names(models) && Names(r) == Names(models) + [Trim(sheet.0)])
    ensures forall n :: n != Trim(sheet.0) ==> Lookup(r, n) == Lookup(models, n)
  {
    var modelName := Trim(sheet.0);
    if modelName == [] then models
    else if |sheet.1| == 0 then models
    else
      var fields := ParseRows(sheet.1);
      if |fields| > 0 then Assign(models, modelName, fields) else models
  }

  /** The loop over `workbook.SheetNames`, as a fold from the left: no key repeats and none is empty. */
  function ParseWorkbook(sheets: seq<Sheet>): (r: seq<Entry>)
    ensures Distinct(Names(r))
    ensures forall n :: n in Names(r) ==> n != []
  {
    if sheets == [] then []
    else AddSheet(ParseWorkbook(sheets[..|sheets| - 1]), sheets[|sheets| - 1])
  }

  /** Each listed widget name selects its own control. */
  lemma MapUiTypeRoundTrip(t: UiType)
    requires t != Input
    ensures MapUiType(WidgetName(t).value) == t
  {
  }

  /** A sheet contributes when its trimmed name is non-empty and it yields at least one field. */
  predicate Contributes(sheet: Sheet) {
    Trim(sheet.0) != [] && ParseRows(sheet.1) != []
  }

  /** The trimmed names of the contributing sheets, in workbook order, repeats kept. */
  function ContributingNames(sheets: seq<Sheet>): (ns: seq<string>)
    ensures forall n :: n in ns ==> n != []
  {
    if sheets == [] then []
    else
      var last := sheets[|sheets| - 1];
      ContributingNames(sheets[..|sheets| - 1]) + if Contributes(last) then [Trim(last.0)] else []
  }

  /** The fields of the last contributing sheet whose trimmed name is `name`. */
  function LastFields(sheets: seq<Sheet>, name: string): Option<seq<Field>> {
    if sheets == [] then None
    else
      var last := sheets[|sheets| - 1];
      if Contributes(last) && Trim(last.0) == name then Some(ParseRows(last.1))
      else LastFields(sheets[..|sheets| - 1], name)
  }

  /** One loop step adds or overwrites the sheet's key exactly when the sheet contributes. */
  lemma AddSheetSpec(models: seq<Entry>, sheet: Sheet)
    ensures var name := Trim(sheet.0);
      Names(AddSheet(models, sheet))
        == Names(models) + if Contributes(sheet) && name !in Names(models) then [name] else []
    ensures forall n ::
              Lookup(AddSheet(models, sheet), n) ==
              if Contributes(sheet) && n == Trim(sheet.0) then Some(ParseRows(sheet.1)) else Lookup(models, n)
  {
    if Trim(sheet.0) != [] && |sheet.1| == 0 {
      assert ParseRows(sheet.1) == [];
    }
  }

  /**
   * The assembled record, described without the loop: its keys are the
   * contributing trimmed sheet names, each once, in order of first appearance;
   * each key holds the fields of the last sheet with that trimmed name.
   */
  lemma ParseWorkbookSpec(sheets: seq<Sheet>)
    ensures Names(ParseWorkbook(sheets)) == Dedup(ContributingNames(sheets))
    ensures forall n :: Lookup(ParseWorkbook(sheets), n) == LastFields(sheets, n)
  {
    WorkbookNamesDedup(sheets);
    WorkbookLookupLast(sheets);
  }

  /** The record's keys are the contributing names, each once, in order of first appearance. */
  lemma {:induction false} WorkbookNamesDedup(sheets: seq<Sheet>)
    ensures Names(ParseWorkbook(sheets)) == Dedup(ContributingNames(sheets))
  {
    if sheets != [] {
      var init := sheets[..|sheets| - 1];
      var last := sheets[|sheets| - 1];
      WorkbookNamesDedup(init);
      AddSheetSpec(ParseWorkbook(init), last);
      assert ParseWorkbook(sheets) == AddSheet(ParseWorkbook(init), last);
      if Contributes(last) {
        DedupSnoc(ContributingNames(init), Trim(last.0));
      } else {
        assert ContributingNames(sheets) == ContributingNames(init);
        assert Names(ParseWorkbook(sheets)) == Names(ParseWorkbook(init)) + [];
      }
    }
  }

  /** Each key holds the fields of the last contributing sheet with that trimmed name. */
  lemma {:induction false} WorkbookLookupLast(sheets: seq<Sheet>)
    ensures forall n :: Lookup(ParseWorkbook(sheets), n) == LastFields(sheets, n)
  {
    if sheets != [] {
      var init := sheets[..|sheets| - 1];
      var last := sheets[|sheets| - 1];
      WorkbookLookupLast(init);
      AddSheetSpec(ParseWorkbook(init), last);
      assert ParseWorkbook(sheets) == AddSheet(ParseWorkbook(init), last);
    }
  }

  /** Every key of the record is a non-empty trimmed name, and no key repeats. */
  lemma WorkbookKeys(sheets: seq<Sheet>)
    ensures Distinct(Names(ParseWorkbook(sheets)))
    ensures forall n :: n in Names(ParseWorkbook(sheets)) ==> n != [] && exists i :: 0 <= i < |sheets| && Trim(sheets[i].0) == n
  {
    ParseWorkbookSpec(sheets);
    forall n | n in Names(ParseWorkbook(sheets))
      ensures exists i :: 0 <= i < |sheets| && Trim(sheets[i].0) == n
    {
      ContributingNameFrom(sheets, n);
    }
  }

  lemma {:induction false} ContributingNameFrom(sheets: seq<Sheet>, n: string)
    requires n in ContributingNames(sheets)
    ensures exists i :: 0 <= i < |sheets| && Contributes(sheets[i]) && Trim(sheets[i].0) == n
  {
    var init := sheets[..|sheets| - 1];
    var last := sheets[|sheets| - 1];
    if n in ContributingNames(init) {
      ContributingNameFrom(init, n);
      var i :| 0 <= i < |init| && Contributes(init[i]) && Trim(init[i].0) == n;
      assert sheets[i] == init[i];
    } else {
      assert Contributes(last) && Trim(last.0) == n;
    }
  }

  /** A sheet whose trimmed name is empty, that has no rows, or whose rows yield no field is not in the record. */
  lemma {:induction false} SilentSheetOmitted(sheets: seq<Sheet>, sheet: Sheet)
    requires !Contributes(sheet)
    ensures ParseWorkbook(sheets + [sheet]) == ParseWorkbook(sheets)
  {
    assert (sheets + [sheet])[..|sheets|] == sheets;
    if Trim(sheet.0) != [] && |sheet.1| != 0 {
      assert ParseRows(sheet.1) == [];
    }
  }

  /**
   * `parseExcel`: the missing-file error, then the sheet loop. Whether the file
   * exists and what the workbook holds are inputs here.
   */
  method ParseExcel(fileExists: bool, filePath: string, sheets: seq<Sheet>) returns (r: Result<seq<Entry>, string>)
    ensures !fileExists ==> r == Failure("File not found at path: " + filePath)
    ensures fileExists ==> r.Success?
    ensures r.Success? ==> Names(r.value) == Dedup(ContributingNames(sheets))
    ensures r.Success? ==> forall n :: Lookup(r.value, n) == LastFields(sheets, n)
  {
    if !fileExists {
      return Failure("File not found at path: " + filePath);
    }
    var models: seq<Entry> := [];
    var i := 0;
    while i < |sheets|
      invariant 0 <= i <= |sheets|
      invariant models == ParseWorkbook(sheets[..i])
    {
      assert sheets[..i + 1][..i] == sheets[..i];
      var modelName := Trim(sheets[i].0);
      if modelName != [] && |sheets[i].1| != 0 {
        var fields := ParseRows(sheets[i].1);
        if |fields| > 0 {
          models := Assign(models, modelName, fields);
        }
      }
      i := i + 1;
    }
    assert sheets[..|sheets|] == sheets;
    ParseWorkbookSpec(sheets);
    return Success(models);
  }
}

=== FILE: form_layout.dfy ===
/**
 * The form component generators (the current one under `generators/` and the
 * older one beside the parser): the split of the fields into a main grid and a
 * last row of at most three, and the control each `uiType` is rendered with.
 * The emitted JSX is described by its structure, not its text.
 */
module FormLayout {
  import opened Wrappers
  import opened ExcelParser
  import CommentOptions

  // ---------------------------------------------------------------------------
  // Main grid and last row

  /** `Math.max(0, fields.length - 3)`. */
  function SplitIndex(n: nat): (k: nat)
    ensures k <= n
  {
    if n >= 3 then n - 3 else 0
  }

  /** `fields.slice(0, splitIndex)` and `fields.slice(splitIndex)`. */
  function SplitLastRow<T>(xs: seq<T>): (parts: (seq<T>, seq<T>)) {
    var k := SplitIndex(|xs|);
    (xs[..k], xs[k..])
  }

  /** The two parts put back together are the input; the last row holds `min(3, n)` items. */
  lemma SplitLastRowSpec<T>(xs: seq<T>)
    ensures SplitLastRow(xs).0 + SplitLastRow(xs).1 == xs
    ensures |SplitLastRow(xs).1| == if |xs| < 3 then |xs| else 3
    ensures |SplitLastRow(xs).0| == if |xs| < 3 then 0 else |xs| - 3
  {
    var k := SplitIndex(|xs|);
    assert xs[..k] + xs[k..] == xs;
  }

  // ---------------------------------------------------------------------------
  // One form field

  /** The control inside `<FormControl>`. */
  datatype Control =
    | TextareaControl(placeholder: string)
    | SelectControl(items: seq<string>)
    | CheckboxControl
    | RadioControl(items: seq<string>)
    | FileControl(registered: string)
    | InputControl(placeholder: string)

  /** Whether the `render` callback takes the `{ field }` argument or none. */
  datatype RenderArg = FieldArg | NoArg

  /** One emitted `<FormField>`. */
  datatype FormFieldView = FormFieldView(
    name: string,
    lbl: string,
    control: Control,
    description: Option<string>,
    render: RenderArg,
    labelWrapped: bool)

  /** `field.options?.map(...).join("\n") || ''`: one item per option, none when there are none. */
  function OptionItems(options: Option<seq<string>>): (items: seq<string>)
    ensures options.Some? ==> items == options.value
    ensures options.None? ==> items == []
  {
    options.GetOr([])
  }

  /** `field.description ? <FormDescription> : ''`: only a non-empty description is shown. */
  function Description(description: Option<string>): (d: Option<string>)
    ensures d.Some? <==> description.Some? && description.value != []
    ensures d.Some? ==> d == description
  {
    if description.Some? && description.value != [] then description else None
  }

  /**
   * The control a `uiType` selects, as both generators do it. The control tells
   * the `uiType` back (a colour picker falls back to an input), and what it
   * shows comes from the field: its options, its placeholder or its name.
   */
  function ControlFor(f: Field): (c: Control)
    ensures c.SelectControl? <==> f.uiType == Select
    ensures c.RadioControl? <==> f.uiType == Radio
    ensures c.CheckboxControl? <==> f.uiType == Checkbox
    ensures c.FileControl? <==> f.uiType == File
    ensures c.TextareaControl? <==> f.uiType == Textarea
    ensures c.InputControl? <==> f.uiType == Input || f.uiType == Color
    ensures c.SelectControl? || c.RadioControl? ==> c.items == OptionItems(f.options)
    ensures c.TextareaControl? || c.InputControl? ==> c.placeholder == f.placeholder
    ensures c.FileControl? ==> c.registered == f.fieldName
  {
    match f.uiType
    case Textarea => TextareaControl(f.placeholder)
    case Select => SelectControl(OptionItems(f.options))
    case Checkbox => CheckboxControl
    case Radio => RadioControl(OptionItems(f.options))
    case File => FileControl(f.fieldName)
    case _ => InputControl(f.placeholder)
  }

  /** `generateFormField` of the current generator; it wraps a checkbox's label in a `div`. */
  function FormField(f: Field): (v: FormFieldView)
    ensures v.name == f.fieldName && v.lbl == f.lbl
    ensures v.render == NoArg <==> f.uiType == File
    ensures v.labelWrapped <==> f.uiType == Checkbox
  {
    FormFieldView(f.fieldName, f.lbl, ControlFor(f), Description(f.description),
      if f.uiType == File then NoArg else FieldArg, f.uiType == Checkbox)
  }

  /** `generateFormField` of the older generator; its checkbox label sits directly in the item. */
  function LegacyFormField(f: Field): (v: FormFieldView)
    ensures v.name == f.fieldName && v.lbl == f.lbl
    ensures v.render == NoArg <==> f.uiType == File
    ensures !v.labelWrapped
  {
    FormFieldView(f.fieldName, f.lbl, ControlFor(f), Description(f.description),
      if f.uiType == File then NoArg else FieldArg, false)
  }

  /**
   * What each `uiType` renders: option lists for select and radio, a bound
   * checkbox, a registered file input, and a plain input for colour and input.
   */
  lemma ControlByType(f: Field)
    ensures f.uiType == Select ==> FormField(f).control == SelectControl(OptionItems(f.options))
    ensures f.uiType == Radio ==> FormField(f).control == RadioControl(OptionItems(f.options))
    ensures f.uiType == Checkbox ==> FormField(f).control == CheckboxControl && FormField(f).render == FieldArg
    ensures f.uiType == File ==> FormField(f).control == FileControl(f.fieldName) && FormField(f).render == NoArg
    ensures f.uiType in {Color, Input} ==> FormField(f).control == InputControl(f.placeholder)
    ensures f.uiType == Textarea ==> FormField(f).control == TextareaControl(f.placeholder)
  {
  }

  /** The two generators render a field identically except for the checkbox label's wrapper. */
  lemma GeneratorsAgree(f: Field)
    ensures LegacyFormField(f) == FormField(f).(labelWrapped := false)
    ensures f.uiType != Checkbox ==> LegacyFormField(f) == FormField(f)
  {
  }

  /** The options shown for a field parsed from a row are exactly the options its comment lists. */
  lemma ParsedOptionsShown(row: Row)
    requires KeepRow(row)
    requires NormaliseRow(row).uiType in {Select, Radio}
    ensures FormField(NormaliseRow(row)).control.items == OptionItems(CommentOptions.ParseOptions(CellOr(row.comments, "")))
  {
  }

  // ---------------------------------------------------------------------------
  // The whole form

  /** The rendered main grid and last row of a form. */
  datatype FormBody = FormBody(main: seq<FormFieldView>, lastRow: seq<FormFieldView>)

  function MapFields(fields: seq<Field>, legacy: bool): (vs: seq<FormFieldView>)
    ensures |vs| == |fields|
    ensures forall i :: 0 <= i < |fields| ==> vs[i] == if legacy then LegacyFormField(fields[i]) else FormField(fields[i])
  {
    seq(|fields|, i requires 0 <= i < |fields| => if legacy then LegacyFormField(fields[i]) else FormField(fields[i]))
  }

  /**
   * `generateFormComponent`: the current generator (`legacy` false) or the
   * older one. Every field is rendered exactly once, in order, under its own
   * name: the main grid followed by the last row is the whole list rendered;
   * the last row holds `min(3, n)` fields.
   */
  function FormComponent(fields: seq<Field>, legacy: bool): (b: FormBody)
    ensures b.main + b.lastRow == MapFields(fields, legacy)
    ensures |b.lastRow| == (if |fields| < 3 then |fields| else 3)
    ensures forall i :: 0 <= i < |fields| ==> (b.main + b.lastRow)[i].name == fields[i].fieldName
  {
    var parts := SplitLastRow(fields);
    SplitLastRowSpec(fields);
    MapFieldsAppend(parts.0, parts.1, legacy);
    FormBody(MapFields(parts.0, legacy), MapFields(parts.1, legacy))
  }

  /** Rendering two runs of fields one after the other is rendering them together. */
  lemma MapFieldsAppend(a: seq<Field>, b: seq<Field>, legacy: bool)
    ensures MapFields(a, legacy) + MapFields(b, legacy) == MapFields(a + b, legacy)
  {
    var l, r := MapFields(a, legacy) + MapFields(b, legacy), MapFields(a + b, legacy);
    forall i | 0 <= i < |l|
      ensures l[i] == r[i]
    {
      if i >= |a| {
        assert (a + b)[i] == b[i - |a|];
      }
    }
  }
}

=== FILE: labels.dfy ===
/**
 * Field labels: `createLabel` turns a snake_case or camelCase column name into
 * the human-readable label shown on forms and table headers. Underscores become
 * spaces, a space is put between every lower-case/upper-case ASCII pair, and
 * every space-separated word gets its first character upper-cased.
 */
module Labels {
  import opened Text

  /** `.replace(/([a-z])([A-Z])/g, '$1 $2')`: scans left to right; a match consumes both characters. */
  function SplitCamel(s: string): (r: string)
    ensures s != [] ==> r != [] && r[0] == s[0]
    ensures forall c :: c in r ==> c in s || c == ' '
    decreases |s|
  {
    if |s| < 2 then s
    else if IsLowerAscii(s[0]) && IsUpperAscii(s[1]) then [s[0], ' ', s[1]] + SplitCamel(s[2..])
    else [s[0]] + SplitCamel(s[1..])
  }

  /** `.map(word => word.charAt(0).toUpperCase() + word.slice(1))`. */
  function MapCapitalize(words: seq<string>): (r: seq<string>)
    ensures |r| == |words|
    ensures forall k :: 0 <= k < |words| ==> r[k] == Capitalize(words[k])
  {
    if words == [] then [] else [Capitalize(words[0])] + MapCapitalize(words[1..])
  }

  /**
   * `createLabel(fieldName)`, with the early return for the empty name: the
   * title case of the name once underscores are spaces and camel-case
   * boundaries are split.
   */
  function CreateLabel(fieldName: string): (r: string)
    ensures r == TitleCase(SplitCamel(ReplaceChar(fieldName, '_', ' ')))
  {
    if fieldName == [] then []
    else
      var spaced := SplitCamel(ReplaceChar(fieldName, '_', ' '));
      assert MapCapitalize(Split(spaced, ' ')) == CapWords(Split(spaced, ' '), true);
      CapitalizeWordsIsTitleCase(spaced, true);
      Join(MapCapitalize(Split(spaced, ' ')), ' ')
  }

  // ---------------------------------------------------------------------------
  // Reference definition: title case, character by character

  /** `s[i]` begins a word: it is the first character, or it follows a space. */
  predicate BeginsWord(s: string, i: int, atStart: bool)
    requires 0 <= i < |s|
  {
    if i == 0 then atStart else s[i - 1] == ' '
  }

  /** Upper-cases the characters that begin a space-separated word, left to right. */
  function TitleCaseFrom(s: string, atStart: bool): (r: string)
    ensures |r| == |s|
  {
    if s == [] then [] else [if atStart then ToUpperChar(s[0]) else s[0]] + TitleCaseFrom(s[1..], s[0] == ' ')
  }

  function TitleCase(s: string): string {
    TitleCaseFrom(s, true)
  }

  /** Exactly the characters that begin a word are upper-cased; the rest are kept. */
  lemma {:induction false} TitleCaseAt(s: string, atStart: bool)
    ensures forall i :: 0 <= i < |s| ==>
      TitleCaseFrom(s, atStart)[i] == if BeginsWord(s, i, atStart) then ToUpperChar(s[i]) else s[i]
  {
    if s != [] {
      TitleCaseAt(s[1..], s[0] == ' ');
      forall i | 1 <= i < |s|
        ensures TitleCaseFrom(s, atStart)[i] == if BeginsWord(s, i, atStart) then ToUpperChar(s[i]) else s[i]
      {
        assert BeginsWord(s, i, atStart) == BeginsWord(s[1..], i - 1, s[0] == ' ');
        assert TitleCaseFrom(s, atStart)[i] == TitleCaseFrom(s[1..], s[0] == ' ')[i - 1];
      }
    }
  }

  /** No lower-case ASCII letter is directly followed by an upper-case one. */
  predicate NoCamelPair(s: string) {
    forall i :: 0 <= i < |s| - 1 ==> !(IsLowerAscii(s[i]) && IsUpperAscii(s[i + 1]))
  }

  // ---------------------------------------------------------------------------
  // Capitalising the words of a split is title-casing the string

  /** The word list with every word capitalised, except possibly the first. */
  function CapWords(parts: seq<string>, capFirst: bool): seq<string>
    requires |parts| >= 1
  {
    [if capFirst then Capitalize(parts[0]) else parts[0]] + MapCapitalize(parts[1..])
  }

  lemma {:induction false} CapitalizeWordsIsTitleCase(s: string, atStart: bool)
    ensures Join(CapWords(Split(s, ' '), atStart), ' ') == TitleCaseFrom(s, atStart)
    decreases |s|, 1
  {
    if s == [] {
    } else if s[0] == ' ' {
      CapitalizeWordsAfterSpace(s, atStart);
    } else {
      CapitalizeWordsInWord(s, atStart);
    }
  }

  lemma {:induction false} CapitalizeWordsAfterSpace(s: string, atStart: bool)
    requires s != [] && s[0] == ' '
    ensures Join(CapWords(Split(s, ' '), atStart), ' ') == TitleCaseFrom(s, atStart)
    decreases |s|, 0
  {
    var t := Split(s[1..], ' ');
    var parts := Split(s, ' ');
    assert parts == [[]] + t;
    assert parts[1..] == t;
    var caps := CapWords(parts, atStart);
    assert caps == [[]] + CapWords(t, true);
    assert caps[1..] == CapWords(t, true);
    CapitalizeWordsIsTitleCase(s[1..], true);
  }

  lemma {:induction false} CapitalizeWordsInWord(s: string, atStart: bool)
    requires s != [] && s[0] != ' '
    ensures Join(CapWords(Split(s, ' '), atStart), ' ') == TitleCaseFrom(s, atStart)
    decreases |s|, 0
  {
    var t := Split(s[1..], ' ');
    var parts := Split(s, ' ');
    assert parts == [[s[0]] + t[0]] + t[1..];
    assert parts[1..] == t[1..];
    var c := if atStart then ToUpperChar(s[0]) else s[0];
    var rest := CapWords(t, false);
    assert CapWords(parts, atStart) == [[c] + rest[0]] + rest[1..];
    JoinConsHead([c], rest, ' ');
    CapitalizeWordsIsTitleCase(s[1..], false);
  }

  // ---------------------------------------------------------------------------
  // Camel-case boundaries

  lemma NoCamelPairConcat(a: string, b: string)
    requires NoCamelPair(a) && NoCamelPair(b)
    requires a != [] && b != [] ==> !(IsLowerAscii(a[|a| - 1]) && IsUpperAscii(b[0]))
    ensures NoCamelPair(a + b)
  {
    var s := a + b;
    forall i | 0 <= i < |s| - 1
      ensures !(IsLowerAscii(s[i]) && IsUpperAscii(s[i + 1]))
    {
      if i < |a| - 1 {
        assert s[i] == a[i] && s[i + 1] == a[i + 1];
      } else if i >= |a| {
        assert s[i] == b[i - |a|] && s[i + 1] == b[i - |a| + 1];
      }
    }
  }

  /** After the camel-case replacement no lower/upper pair is left adjacent. */
  lemma {:induction false} SplitCamelSeparates(s: string)
    ensures NoCamelPair(SplitCamel(s))
    decreases |s|
  {
    if |s| < 2 {
    } else if IsLowerAscii(s[0]) && IsUpperAscii(s[1]) {
      SplitCamelSeparates(s[2..]);
      NoCamelPairConcat([s[0], ' ', s[1]], SplitCamel(s[2..]));
    } else {
      SplitCamelSeparates(s[1..]);
      NoCamelPairConcat([s[0]], SplitCamel(s[1..]));
    }
  }

  /** The camel-case replacement changes nothing once every pair is separated. */
  lemma {:induction false} SplitCamelFixed(s: string)
    requires NoCamelPair(s)
    ensures SplitCamel(s) == s
    decreases |s|
  {
    if |s| >= 2 {
      assert NoCamelPair(s[1..]);
      SplitCamelFixed(s[1..]);
      assert s == [s[0]] + s[1..];
    }
  }

  lemma TitleCaseKeepsNoCamelPair(s: string, atStart: bool)
    requires NoCamelPair(s)
    ensures NoCamelPair(TitleCaseFrom(s, atStart))
  {
    var r := TitleCaseFrom(s, atStart);
    TitleCaseAt(s, atStart);
    forall i | 0 <= i < |r| - 1
      ensures !(IsLowerAscii(r[i]) && IsUpperAscii(r[i + 1]))
    {
      assert BeginsWord(s, i + 1, atStart) <==> s[i] == ' ';
    }
  }

  lemma TitleCaseIdempotent(s: string)
    ensures TitleCase(TitleCase(s)) == TitleCase(s)
  {
    var r := TitleCase(s);
    var r2 := TitleCase(r);
    TitleCaseAt(s, true);
    TitleCaseAt(r, true);
    forall i | 0 <= i < |s|
      ensures r2[i] == r[i]
    {
      assert BeginsWord(r, i, true) <==> BeginsWord(s, i, true);
    }
  }

  // ---------------------------------------------------------------------------
  // Properties of labels

  /** A label never contains an underscore. */
  lemma LabelHasNoUnderscore(fieldName: string)
    ensures '_' !in CreateLabel(fieldName)
  {
    var replaced := ReplaceChar(fieldName, '_', ' ');
    ReplaceCharRemoves(fieldName, '_', ' ');
    var camel := SplitCamel(replaced);
    assert '_' !in camel;
    var r := TitleCase(camel);
    TitleCaseAt(camel, true);
    forall i | 0 <= i < |r|
      ensures r[i] != '_'
    {
      assert camel[i] != '_';
    }
  }

  /** In a label every lower-case ASCII letter followed by an upper-case one has been split apart. */
  lemma LabelHasNoCamelPair(fieldName: string)
    ensures NoCamelPair(CreateLabel(fieldName))
  {
    var camel := SplitCamel(ReplaceChar(fieldName, '_', ' '));
    SplitCamelSeparates(ReplaceChar(fieldName, '_', ' '));
    TitleCaseKeepsNoCamelPair(camel, true);
  }

  /** Labelling a label gives the same label back. */
  lemma CreateLabelIdempotent(fieldName: string)
    ensures CreateLabel(CreateLabel(fieldName)) == CreateLabel(fieldName)
  {
    var lbl := CreateLabel(fieldName);
    LabelHasNoUnderscore(fieldName);
    LabelHasNoCamelPair(fieldName);
    ReplaceCharAbsent(lbl, '_', ' ');
    SplitCamelFixed(lbl);
    var camel := SplitCamel(ReplaceChar(fieldName, '_', ' '));
    TitleCaseIdempotent(camel);
  }

  lemma EmptyLabel()
    ensures CreateLabel("") == ""
  {
  }

  /** A name whose only camel-case work is replacing underscores is labelled by title-casing. */
  lemma LabelOfSnakeName(fieldName: string, spaced: string, expected: string)
    requires ReplaceChar(fieldName, '_', ' ') == spaced
    requires NoCamelPair(spaced)
    requires TitleCase(spaced) == expected
    ensures CreateLabel(fieldName) == expected
  {
    SplitCamelFixed(spaced);
    LabelOfSteps(fieldName, spaced, spaced, expected);
  }

  /** The label follows from the result of each step: replacement, camel-case split, title case. */
  lemma LabelOfSteps(fieldName: string, spaced: string, split: string, expected: string)
    requires ReplaceChar(fieldName, '_', ' ') == spaced
    requires SplitCamel(spaced) == split
    requires TitleCase(split) == expected
    ensures CreateLabel(fieldName) == expected
  {
  }

  /** A string that upper-cases exactly the word-initial characters of `s` is its title case. */
  lemma TitleCaseOf(s: string, atStart: bool, expected: string)
    requires |expected| == |s|
    requires forall i :: 0 <= i < |s| ==> expected[i] == if BeginsWord(s, i, atStart) then ToUpperChar(s[i]) else s[i]
    ensures TitleCaseFrom(s, atStart) == expected
  {
    TitleCaseAt(s, atStart);
  }

  lemma FirstNameLabel()
    ensures CreateLabel("first_name") == "First Name"
  {
    FirstNameSpaced();
    TitleCaseOf("first name", true, "First Name");
    LabelOfSnakeName("first_name", "first name", "First Name");
  }

  lemma FirstNameSpaced()
    ensures ReplaceChar("first_name", '_', ' ') == "first name"
    ensures NoCamelPair("first name")
  {
  }

  /** `*_id` columns keep their suffix: the generated user form shows "Role Id". */
  lemma RoleIdLabel()
    ensures CreateLabel("role_id") == "Role Id"
  {
    RoleIdSpaced();
    TitleCaseOf("role id", true, "Role Id");
    LabelOfSnakeName("role_id", "role id", "Role Id");
  }

  lemma RoleIdSpaced()
    ensures ReplaceChar("role_id", '_', ' ') == "role id"
    ensures NoCamelPair("role id")
  {
  }

  /** Only words after spaces are capitalised; `|` does not start a word. */
  lemma PipedLabel()
    ensures CreateLabel("user_picture|user_id|picture") == "User Picture|user Id|picture"
  {
    PipedNameSpaced();
    PipedNameSeparated();
    PipedNameTitled();
    LabelOfSnakeName("user_picture|user_id|picture", "user picture|user id|picture", "User Picture|user Id|picture");
  }

  lemma PipedNameSpaced()
    ensures ReplaceChar("user_picture|user_id|picture", '_', ' ') == "user picture|user id|picture"
  {
  }

  lemma PipedNameSeparated()
    ensures NoCamelPair("user picture|user id|picture")
  {
    PipedNameHalves();
    PipedHeadSeparated();
    PipedTailSeparated();
    NoCamelPairConcat("user picture|", "user id|picture");
  }

  lemma PipedHeadSeparated()
    ensures NoCamelPair("user picture|")
  {
  }

  lemma PipedTailSeparated()
    ensures NoCamelPair("user id|picture")
  {
  }

  /** Title-cased in two halves, split after the `|`, which does not begin a word. */
  lemma PipedNameTitled()
    ensures TitleCase("user picture|user id|picture") == "User Picture|user Id|picture"
  {
    PipedNameHalves();
    PipedNameTitledByHalves();
    PipedHeadTitled();
    PipedTailTitled();
    PipedLabelHalves();
  }

  lemma PipedNameHalves()
    ensures "user picture|" + "user id|picture" == "user picture|user id|picture"
  {
  }

  lemma PipedLabelHalves()
    ensures "User Picture|" + "user Id|picture" == "User Picture|user Id|picture"
  {
  }

  lemma PipedNameTitledByHalves()
    ensures TitleCaseFrom("user picture|" + "user id|picture", true)
      == TitleCaseFrom("user picture|", true) + TitleCaseFrom("user id|picture", false)
  {
    TitleCaseAppend("user picture|", "user id|picture", true);
  }

  lemma PipedHeadTitled()
    ensures TitleCaseFrom("user picture|", true) == "User Picture|"
  {
    TitleCaseOf("user picture|", true, "User Picture|");
  }

  lemma PipedTailTitled()
    ensures TitleCaseFrom("user id|picture", false) == "user Id|picture"
  {
    TitleCaseOf("user id|picture", false, "user Id|picture");
  }

  /** Title-casing two strings one after the other: the second starts a word when the first ends in a space. */
  lemma {:induction false} TitleCaseAppend(a: string, b: string, atStart: bool)
    ensures TitleCaseFrom(a + b, atStart)
      == TitleCaseFrom(a, atStart) + TitleCaseFrom(b, if a == [] then atStart else a[|a| - 1] == ' ')
  {
    if a == [] {
      assert a + b == b;
    } else {
      assert (a + b)[1..] == a[1..] + b;
      TitleCaseAppend(a[1..], b, a[0] == ' ');
    }
  }

  lemma CamelLabel()
    ensures CreateLabel("bgColor") == "Bg Color"
  {
    ReplaceCharAbsent("bgColor", '_', ' ');
    BgColorSplit();
    BgColorTitled();
    LabelOfSteps("bgColor", "bgColor", "bg Color", "Bg Color");
  }

  lemma BgColorSplit()
    ensures SplitCamel("bgColor") == "bg Color"
  {
    GColorSplit();
    assert "bgColor"[1..] == "gColor";
  }

  lemma GColorSplit()
    ensures SplitCamel("gColor") == "g Color"
  {
    SplitCamelFixed("olor");
    assert "gColor"[2..] == "olor";
  }

  lemma BgColorTitled()
    ensures TitleCase("bg Color") == "Bg Color"
  {
    TitleCaseOf("bg Color", true, "Bg Color");
  }
}

=== FILE: list_page.dfy ===
/**
 * The input-dependent parts of the list page generator: identifier
 * sanitising, the zod-to-TypeScript type map, the choice of the primary
 * display field, the lines of the model's type definition, the table columns
 * and the shape of the thirteen mock rows.
 */
module ListPage {
  import opened Wrappers
  import opened Text
  import opened ExcelParser

  // ---------------------------------------------------------------------------
  // Identifiers and types

  /** The character class `[a-zA-Z0-9_]`. */
  predicate IsIdentChar(c: char) {
    IsUpperAscii(c) || IsLowerAscii(c) || IsDigitAscii(c) || c == '_'
  }

  /** `name.replace(/[^a-zA-Z0-9_]/g, '_')`. */
  function SanitizeFieldName(name: string): (r: string)
    ensures |r| == |name|
  {
    seq(|name|, i requires 0 <= i < |name| => if IsIdentChar(name[i]) then name[i] else '_')
  }

  /** Identifier characters are kept and every other character becomes `_`, so the result is an identifier string. */
  lemma SanitizeSpec(name: string)
    ensures forall i :: 0 <= i < |name| ==>
      (IsIdentChar(name[i]) ==> SanitizeFieldName(name)[i] == name[i]) &&
      (!IsIdentChar(name[i]) ==> SanitizeFieldName(name)[i] == '_')
    ensures forall c :: c in SanitizeFieldName(name) ==> IsIdentChar(c)
  {
  }

  lemma SanitizeIdempotent(name: string)
    ensures SanitizeFieldName(SanitizeFieldName(name)) == SanitizeFieldName(name)
  {
  }

  /** A name made of identifier characters only is left as it is. */
  lemma SanitizeKeepsIdentifiers(name: string)
    requires forall i :: 0 <= i < |name| ==> IsIdentChar(name[i])
    ensures SanitizeFieldName(name) == name
  {
  }

  /** `mapToTsType`: dates travel as strings, unknown kinds as strings too. */
  function MapToTsType(z: ZodType): (t: string)
    ensures t in {"number", "boolean", "string", "any"}
  {
    match z
    case NumberType => "number"
    case BooleanType => "boolean"
    case DateType => "string"
    case AnyType => "any"
    case StringType => "string"
  }

  /** The type map is injective except that dates and strings share `string`. */
  lemma MapToTsTypeCollisions(a: ZodType, b: ZodType)
    requires a != b
    ensures MapToTsType(a) == MapToTsType(b) <==> {a, b} == {DateType, StringType}
  {
    if MapToTsType(a) == MapToTsType(b) {
      assert a in {DateType, StringType} && b in {DateType, StringType};
    }
  }

  /** The `id` test after sanitising agrees with the one before it: `_` never turns a name into `id`. */
  lemma IdTestAgrees(name: string)
    ensures Lower(SanitizeFieldName(name)) == "id" <==> Lower(name) == "id"
  {
    var s := SanitizeFieldName(name);
    if Lower(s) == "id" {
      assert |name| == 2;
      assert Lower(s)[0] == 'i' && Lower(s)[1] == 'd';
      assert s[0] != '_' && s[1] != '_';
      assert s[0] == name[0] && s[1] == name[1];
      assert Lower(name) == [Lower(s)[0], Lower(s)[1]];
    }
    if Lower(name) == "id" {
      assert |name| == 2;
      assert Lower(name)[0] == 'i' && Lower(name)[1] == 'd';
      assert IsIdentChar(name[0]) && IsIdentChar(name[1]);
      assert Lower(s) == [Lower(name)[0], Lower(name)[1]];
    }
  }

  // ---------------------------------------------------------------------------
  // The primary display field

  predicate IsNameField(f: Field) {
    Lower(f.fieldName) == "name"
  }

  /**
   * `fields.find(f => lower(f.fieldName) === 'name') || fields[1] || fields[0]`.
   * On an empty list the source dereferences `undefined` and throws; that is `None`.
   */
  method PrimaryDisplayField(fields: seq<Field>) returns (r: Option<Field>)
    ensures r.None? <==> fields == []
    ensures (exists i :: 0 <= i < |fields| && IsNameField(fields[i])) ==>
      exists i :: 0 <= i < |fields| && IsNameField(fields[i]) && r == Some(fields[i])
        && forall j :: 0 <= j < i ==> !IsNameField(fields[j])
    ensures (forall i :: 0 <= i < |fields| ==> !IsNameField(fields[i])) ==>
      r == if |fields| > 1 then Some(fields[1]) else if |fields| == 1 then Some(fields[0]) else None
  {
    var i := 0;
    while i < |fields|
      invariant 0 <= i <= |fields|
      invariant forall j :: 0 <= j < i ==> !IsNameField(fields[j])
    {
      if IsNameField(fields[i]) {
        return Some(fields[i]);
      }
      i := i + 1;
    }
    if |fields| > 1 {
      return Some(fields[1]);
    } else if |fields| == 1 {
      return Some(fields[0]);
    }
    return None;
  }

  /** `primaryFilterKey`: the sanitised name of the primary display field. */
  method PrimaryFilterKey(fields: seq<Field>) returns (r: Option<string>)
    ensures r.None? <==> fields == []
    ensures r.Some? ==> exists i :: 0 <= i < |fields| && r.value == SanitizeFieldName(fields[i].fieldName)
  {
    var f := PrimaryDisplayField(fields);
    if f.None? {
      return None;
    }
    assert exists i :: 0 <= i < |fields| && f.value == fields[i] by {
      if exists i :: 0 <= i < |fields| && IsNameField(fields[i]) {
      } else if |fields| > 1 {
        assert f.value == fields[1];
      } else {
        assert f.value == fields[0];
      }
    }
    return Some(SanitizeFieldName(f.value.fieldName));
  }

  // ---------------------------------------------------------------------------
  // The type definition

  /** One `name: type;` line of `export type Model = { ... }`. */
  datatype TypeEntry = TypeEntry(name: string, tsType: string)

  function TypeEntryOf(f: Field): (e: TypeEntry)
    ensures Lower(f.fieldName) == "id" ==> e == TypeEntry("id", "number | string")
    ensures Lower(f.fieldName) != "id" ==> e.name == SanitizeFieldName(f.fieldName) && e.tsType == MapToTsType(f.zodType)
  {
    var sanitized := SanitizeFieldName(f.fieldName);
    IdTestAgrees(f.fieldName);
    if Lower(sanitized) == "id" then TypeEntry("id", "number | string")
    else TypeEntry(sanitized, MapToTsType(f.zodType))
  }

  /** The body of the type definition, one entry per field in field order. */
  function TypeDefinition(fields: seq<Field>): (entries: seq<TypeEntry>)
    ensures |entries| == |fields|
    ensures forall i :: 0 <= i < |fields| ==> entries[i] == TypeEntryOf(fields[i])
  {
    seq(|fields|, i requires 0 <= i < |fields| => TypeEntryOf(fields[i]))
  }

  /** Every entry names an identifier, and an `id`-like field is always typed `number | string`. */
  lemma TypeDefinitionEntries(fields: seq<Field>)
    ensures forall i :: 0 <= i < |fields| ==>
      var e := TypeDefinition(fields)[i];
      (forall c :: c in e.name ==> IsIdentChar(c)) &&
      (Lower(fields[i].fieldName) == "id" <==> e.tsType == "number | string")
  {
    forall i | 0 <= i < |fields|
      ensures var e := TypeDefinition(fields)[i];
        (forall c :: c in e.name ==> IsIdentChar(c)) &&
        (Lower(fields[i].fieldName) == "id" <==> e.tsType == "number | string")
    {
      SanitizeSpec(fields[i].fieldName);
    }
  }

  // ---------------------------------------------------------------------------
  // Table columns

  /** The columns of the data table. */
  datatype Column = SelectColumn | IdColumn | DataColumn(accessorKey: string, header: string) | ActionsColumn

  predicate IsIdField(f: Field) {
    Lower(f.fieldName) == "id"
  }

  /** `fields.filter(f => lower(f.fieldName) !== 'id')`, order kept. */
  function NonIdFields(fields: seq<Field>): (r: seq<Field>)
    ensures |r| <= |fields|
    ensures forall i :: 0 <= i < |r| ==> !IsIdField(r[i]) && r[i] in fields
  {
    if fields == [] then []
    else if IsIdField(fields[0]) then NonIdFields(fields[1..])
    else [fields[0]] + NonIdFields(fields[1..])
  }

  /** `select`, `id`, the data columns of the first seven non-`id` fields, `actions`. */
  function TableColumns(fields: seq<Field>): (cols: seq<Column>)
    ensures 3 <= |cols| <= 10
    ensures cols[0] == SelectColumn && cols[1] == IdColumn && cols[|cols| - 1] == ActionsColumn
  {
    var shown := NonIdFields(fields);
    var shown := if |shown| > 7 then shown[..7] else shown;
    [SelectColumn, IdColumn]
      + seq(|shown|, i requires 0 <= i < |shown| => DataColumn(SanitizeFieldName(shown[i].fieldName), shown[i].lbl))
      + [ActionsColumn]
  }

  /** The data columns are exactly the first `min(7, n)` non-`id` fields, in order, and none of them is keyed `id`. */
  lemma TableColumnsData(fields: seq<Field>)
    ensures var shown := NonIdFields(fields);
      var k := if |shown| > 7 then 7 else |shown|;
      |TableColumns(fields)| == k + 3 &&
      forall i :: 0 <= i < k ==>
        TableColumns(fields)[i + 2] == DataColumn(SanitizeFieldName(shown[i].fieldName), shown[i].lbl) &&
        Lower(TableColumns(fields)[i + 2].accessorKey) != "id"
  {
    var shown := NonIdFields(fields);
    forall i | 0 <= i < |shown|
      ensures Lower(SanitizeFieldName(shown[i].fieldName)) != "id"
    {
      IdTestAgrees(shown[i].fieldName);
    }
  }

  // ---------------------------------------------------------------------------
  // Mock data

  /** A mock cell: a number, or the text `"<prefix> <n>"`. */
  datatype MockValue = Num(n: int) | Str(prefix: string, suffix: nat)

  /** One mock row: its numeric id and the value of every non-`id` field. */
  datatype MockRow = MockRow(id: nat, values: seq<(string, MockValue)>)

  const MockRowCount: nat := 13

  /** The value of field `f` in the row built at index `i`. */
  function MockValueOf(f: Field, i: nat): (v: MockValue)
    ensures MapToTsType(f.zodType) == "number" <==> v.Num?
    ensures v.Num? ==> v.n == i + 10
    ensures v.Str? ==> v.suffix == i + 1 && |v.prefix| == |f.fieldName| && '_' !in v.prefix
  {
    if MapToTsType(f.zodType) == "number" then Num(i + 10)
    else
      var spaced := ReplaceChar(f.fieldName, '_', ' ');
      ReplaceCharRemoves(f.fieldName, '_', ' ');
      Str(Capitalize(spaced), i + 1)
  }

  /** Row `i` of the mock data: id `i + 1` and one keyed value per shown field, in order. */
  function MockRowAt(fields: seq<Field>, i: nat): (row: MockRow)
    ensures row.id == i + 1 && |row.values| == |NonIdFields(fields)|
    ensures forall k :: 0 <= k < |row.values| ==> row.values[k].0 == SanitizeFieldName(NonIdFields(fields)[k].fieldName)
  {
    var shown := NonIdFields(fields);
    MockRow(i + 1, seq(|shown|, k requires 0 <= k < |shown| => (SanitizeFieldName(shown[k].fieldName), MockValueOf(shown[k], i))))
  }

  /** `Array.from({ length: 13 }, (_, i) => ...)`. */
  function MockData(fields: seq<Field>): (rows: seq<MockRow>)
    ensures |rows| == MockRowCount
    ensures forall i :: 0 <= i < |rows| ==> rows[i].id == i + 1
  {
    seq(MockRowCount, i requires 0 <= i < MockRowCount => MockRowAt(fields, i))
  }

  /** Ids run 1..13 without repeats, and no field key of a row can clash with its `id` key. */
  lemma MockDataShape(fields: seq<Field>)
    ensures forall i, j :: 0 <= i < j < |MockData(fields)| ==> MockData(fields)[i].id != MockData(fields)[j].id
    ensures forall i, k :: 0 <= i < |MockData(fields)| && 0 <= k < |MockData(fields)[i].values| ==>
      Lower(MockData(fields)[i].values[k].0) != "id"
  {
    var shown := NonIdFields(fields);
    forall k | 0 <= k < |shown|
      ensures Lower(SanitizeFieldName(shown[k].fieldName)) != "id"
    {
      IdTestAgrees(shown[k].fieldName);
    }
  }

  /** Within a row, numbers appear exactly for fields typed `number`. */
  lemma MockValuesFollowTypes(fields: seq<Field>, i: nat, k: nat)
    requires i < MockRowCount && k < |NonIdFields(fields)|
    ensures var f := NonIdFields(fields)[k];
      var v := MockData(fields)[i].values[k].1;
      (TypeEntryOf(f).tsType == "number" <==> v.Num?) && (v.Num? ==> v.n == i + 10)
  {
  }
}

=== FILE: paths.dfy ===
/**
 * The client-side paths every generator derives from a model name: the list
 * page `/<lower>s`, the create page `/<lower>/create` and the edit page
 * `/<lower>/edit/:id`.
 */
module Paths {
  import opened Text

  function ListPath(modelName: string): (p: string)
    ensures |p| == |modelName| + 2 && p[0] == '/' && p[|p| - 1] == 's'
  {
    "/" + Lower(modelName) + "s"
  }

  function CreatePath(modelName: string): (p: string)
    ensures |p| == |modelName| + 8 && p[0] == '/' && p[|p| - 1] == 'e'
  {
    "/" + Lower(modelName) + "/create"
  }

  function EditPath(modelName: string): (p: string)
    ensures |p| == |modelName| + 10 && p[0] == '/' && p[|p| - 1] == 'd'
  {
    "/" + Lower(modelName) + "/edit/:id"
  }

  /** The three kinds of page never share a path, whatever the two model names. */
  lemma PathKindsDisjoint(a: string, b: string)
    ensures ListPath(a) != CreatePath(b)
    ensures ListPath(a) != EditPath(b)
    ensures CreatePath(a) != EditPath(b)
  {
    var l, c, e := ListPath(a), CreatePath(b), EditPath(b);
    assert l[|l| - 1] != c[|c| - 1];
    assert l[|l| - 1] != e[|e| - 1];
    assert CreatePath(a)[|CreatePath(a)| - 1] != e[|e| - 1];
  }

  /** Two model names get the same list path exactly when they agree up to ASCII case. */
  lemma ListPathInjective(a: string, b: string)
    ensures ListPath(a) == ListPath(b) <==> Lower(a) == Lower(b)
  {
    if ListPath(a) == ListPath(b) {
      assert Lower(a) == ListPath(a)[1..|ListPath(a)| - 1];
      assert Lower(b) == ListPath(b)[1..|ListPath(b)| - 1];
    }
  }

  /** Paths ignore the case of the model name. */
  lemma PathsIgnoreCase(modelName: string)
    ensures ListPath(Upper(modelName)) == ListPath(modelName)
    ensures CreatePath(Upper(modelName)) == CreatePath(modelName)
    ensures EditPath(Upper(modelName)) == EditPath(modelName)
  {
    LowerOfUpper(modelName);
  }
}

=== FILE: routes_generator.dfy ===
/**
 * The router configuration generated for the models: one import per page
 * component and, per model, a list route, plus create and edit routes when the
 * model is edited on its own page rather than in a popup.
 */
module RoutesGenerator {
  import opened Text
  import Paths

  /** What the generator needs to know of a model: whether its form opens in a popup. */
  datatype ModelConfig = ModelConfig(isPopup: bool)

  /** A generated page component, named after the capitalised model name. */
  datatype Component = DataTable(model: string) | Form(model: string)

  /** `import { <component> } from '<source>'`. */
  datatype Import = Import(component: Component, source: string)

  datatype Element = LoginPage | DashboardLayout | DashboardPage | Page(component: Component)

  /** A route object: a path route, the index route, or a layout route with children. */
  datatype Route =
    | PathRoute(path: string, element: Element)
    | IndexRoute(element: Element)
    | LayoutRoute(path: string, element: Element, children: seq<Route>)

  /** `Object.entries(models)`: model names in record order with their configuration. */
  type Models = seq<(string, ModelConfig)>

  function PageSource(cap: string, suffix: string): string {
    "../pages/" + cap + "/" + cap + suffix
  }

  /** The imports of one model: always its table, and its form unless it is a popup model. */
  function ModelImports(name: string, config: ModelConfig): (r: seq<Import>)
    ensures |r| == if config.isPopup then 1 else 2
    ensures r[0].component == DataTable(Capitalize(name))
  {
    var cap := Capitalize(name);
    [Import(DataTable(cap), PageSource(cap, "DataTable"))]
      + if config.isPopup then [] else [Import(Form(cap), PageSource(cap, "Form"))]
  }

  /** The page imports, model by model: one per popup model and two per page model. */
  function Imports(models: Models): (imports: seq<Import>)
    ensures |imports| == |models| + PageModelCount(models)
  {
    if models == [] then []
    else ModelImports(models[0].0, models[0].1) + Imports(models[1..])
  }

  /** The routes of one model: the list page, and the create and edit pages unless it is a popup model. */
  function ModelRoutes(name: string, config: ModelConfig): (r: seq<Route>)
    ensures |r| == if config.isPopup then 1 else 3
    ensures r[0] == PathRoute(Paths.ListPath(name), Page(DataTable(Capitalize(name))))
    ensures !config.isPopup ==>
      r[1] == PathRoute(Paths.CreatePath(name), Page(Form(Capitalize(name)))) &&
      r[2] == PathRoute(Paths.EditPath(name), Page(Form(Capitalize(name))))
  {
    var cap := Capitalize(name);
    [PathRoute(Paths.ListPath(name), Page(DataTable(cap)))]
      + if config.isPopup then []
        else [PathRoute(Paths.CreatePath(name), Page(Form(cap))), PathRoute(Paths.EditPath(name), Page(Form(cap)))]
  }

  /** `routeTags`: the model routes in record order, one per popup model and three per page model. */
  function ModelRouteList(models: Models): (routes: seq<Route>)
    ensures |routes| == |models| + 2 * PageModelCount(models)
  {
    if models == [] then []
    else ModelRoutes(models[0].0, models[0].1) + ModelRouteList(models[1..])
  }

  /** The `routes` array: the login page, then the layout with the dashboard index and the model routes. */
  function RouteTree(models: Models): (routes: seq<Route>)
    ensures |routes| == 2
    ensures routes[0] == PathRoute("/login", LoginPage)
    ensures routes[1].LayoutRoute? && routes[1].path == "/" && routes[1].element == DashboardLayout
    ensures routes[1].children == [IndexRoute(DashboardPage)] + ModelRouteList(models)
  {
    [PathRoute("/login", LoginPage),
     LayoutRoute("/", DashboardLayout, [IndexRoute(DashboardPage)] + ModelRouteList(models))]
  }

  // ---------------------------------------------------------------------------
  // Properties

  /** Concatenating model records concatenates their routes: order is kept. */
  lemma {:induction false} RoutesAppend(a: Models, b: Models)
    ensures ModelRouteList(a + b) == ModelRouteList(a) + ModelRouteList(b)
  {
    if a == [] {
      assert a + b == b;
    } else {
      assert (a + b)[1..] == a[1..] + b;
      RoutesAppend(a[1..], b);
    }
  }

  /** Concatenating model records concatenates their imports. */
  lemma {:induction false} ImportsAppend(a: Models, b: Models)
    ensures Imports(a + b) == Imports(a) + Imports(b)
  {
    if a == [] {
      assert a + b == b;
    } else {
      assert (a + b)[1..] == a[1..] + b;
      ImportsAppend(a[1..], b);
    }
  }

  /** Number of models edited on their own page. */
  function PageModelCount(models: Models): (n: nat)
    ensures n <= |models|
  {
    if models == [] then 0
    else (if models[0].1.isPopup then 0 else 1) + PageModelCount(models[1..])
  }

  /** Every model has its list route. */
  lemma {:induction false} ListRoutePresent(models: Models, i: nat)
    requires i < |models|
    ensures PathRoute(Paths.ListPath(models[i].0), Page(DataTable(Capitalize(models[i].0)))) in ModelRouteList(models)
  {
    if i > 0 {
      ListRoutePresent(models[1..], i - 1);
    }
  }

  /** Every model edited on its own page has its create and edit routes, both showing its form. */
  lemma {:induction false} FormRoutesPresent(models: Models, i: nat)
    requires i < |models| && !models[i].1.isPopup
    ensures PathRoute(Paths.CreatePath(models[i].0), Page(Form(Capitalize(models[i].0)))) in ModelRouteList(models)
    ensures PathRoute(Paths.EditPath(models[i].0), Page(Form(Capitalize(models[i].0)))) in ModelRouteList(models)
  {
    if i > 0 {
      FormRoutesPresent(models[1..], i - 1);
    }
  }

  /** Some model with capitalised name `cap` is edited on its own page. */
  predicate HasPageModel(models: Models, cap: string) {
    exists i :: 0 <= i < |models| && !models[i].1.isPopup && Capitalize(models[i].0) == cap
  }

  /** The first model has the name, or some later one does. */
  lemma HasPageModelCons(models: Models, cap: string)
    requires models != []
    ensures HasPageModel(models, cap)
      <==> (!models[0].1.isPopup && Capitalize(models[0].0) == cap) || HasPageModel(models[1..], cap)
  {
    if HasPageModel(models[1..], cap) {
      var i :| 0 <= i < |models[1..]| && !models[1..][i].1.isPopup && Capitalize(models[1..][i].0) == cap;
      assert models[i + 1] == models[1..][i];
    }
    if HasPageModel(models, cap) {
      var i :| 0 <= i < |models| && !models[i].1.isPopup && Capitalize(models[i].0) == cap;
      if i > 0 {
        assert models[1..][i - 1] == models[i];
      }
    }
  }

  /** A form page is routed exactly when some model with that capitalised name is not a popup model. */
  lemma {:induction false} FormRoutedIff(models: Models, cap: string)
    ensures (exists r :: r in ModelRouteList(models) && r.PathRoute? && r.element == Page(Form(cap)))
        <==> HasPageModel(models, cap)
  {
    if models != [] {
      FormRoutedIff(models[1..], cap);
      HasPageModelCons(models, cap);
      var name, config := models[0].0, models[0].1;
      if !config.isPopup && Capitalize(name) == cap {
        assert ModelRoutes(name, config)[1] == PathRoute(Paths.CreatePath(name), Page(Form(cap)));
      }
    }
  }

  /** A form is imported exactly when some model with that capitalised name is not a popup model. */
  lemma {:induction false} FormImportedIff(models: Models, cap: string)
    ensures (exists m :: m in Imports(models) && m.component == Form(cap)) <==> HasPageModel(models, cap)
  {
    if models != [] {
      FormImportedIff(models[1..], cap);
      HasPageModelCons(models, cap);
      var name, config := models[0].0, models[0].1;
      if !config.isPopup && Capitalize(name) == cap {
        assert ModelImports(name, config)[1].component == Form(cap);
      }
    }
  }

  predicate Imported(imports: seq<Import>, c: Component) {
    exists m :: m in imports && m.component == c
  }

  predicate Routed(routes: seq<Route>, c: Component) {
    exists r :: r in routes && r.PathRoute? && r.element == Page(c)
  }

  /** The routes of one model show exactly the components it imports. */
  lemma ModelRoutesMatchImports(name: string, config: ModelConfig)
    ensures forall r :: r in ModelRoutes(name, config) ==>
              r.PathRoute? && r.element.Page? && Imported(ModelImports(name, config), r.element.component)
    ensures forall m :: m in ModelImports(name, config) ==> Routed(ModelRoutes(name, config), m.component)
  {
    var rs, ms := ModelRoutes(name, config), ModelImports(name, config);
    assert ms[0].component == DataTable(Capitalize(name));
    if !config.isPopup {
      assert ms[1].component == Form(Capitalize(name));
      assert rs[1].element == Page(Form(Capitalize(name)));
    }
  }

  /** Every page a route shows is imported, and every imported component is shown by some route. */
  lemma {:induction false} RoutesMatchImports(models: Models)
    ensures forall r :: r in ModelRouteList(models) ==>
              r.PathRoute? && r.element.Page? && Imported(Imports(models), r.element.component)
    ensures forall m :: m in Imports(models) ==> Routed(ModelRouteList(models), m.component)
  {
    if models != [] {
      RoutesMatchImports(models[1..]);
      var name, config := models[0].0, models[0].1;
      ModelRoutesMatchImports(name, config);
      var rs, ms := ModelRoutes(name, config), ModelImports(name, config);
      var restR, restM := ModelRouteList(models[1..]), Imports(models[1..]);
      assert ModelRouteList(models) == rs + restR;
      assert Imports(models) == ms + restM;
      forall r: Route | r in rs + restR
        ensures r.PathRoute? && r.element.Page? && Imported(ms + restM, r.element.component)
      {
        if r in rs {
          var m :| m in ms && m.component == r.element.component;
          assert m in ms + restM;
        } else {
          var m :| m in restM && m.component == r.element.component;
          assert m in ms + restM;
        }
      }
      forall m: Import | m in ms + restM
        ensures Routed(rs + restR, m.component)
      {
        if m in ms {
          var r :| r in rs && r.PathRoute? && r.element == Page(m.component);
          assert r in rs + restR;
        } else {
          var r :| r in restR && r.PathRoute? && r.element == Page(m.component);
          assert r in rs + restR;
        }
      }
    }
  }
}

=== FILE: sidebar.dfy ===
/**
 * The navigation tree of the sidebar component and the decisions it makes
 * from the current path: whether an item is active, whether a collapsible
 * trigger is highlighted, and where a link points.
 */
module NavTree {
  import opened Wrappers

  /**
   * The `children` of an item. An absent list and an empty one differ: any
   * list, even an empty one, makes the item a collapsible group.
   */
  datatype Children = NoChildren | Kids(items: seq<NavItem>)

  datatype NavItem = NavItem(lbl: string, icon: Option<string>, href: Option<string>, children: Children)

  /**
   * `isLinkActive`: the item's own `href` is the path, or some child is active;
   * that is, some item of the subtree links to the path.
   */
  predicate IsLinkActive(item: NavItem, pathname: string): (active: bool)
    ensures active <==> pathname in Hrefs(item)
    ensures item.href == Some(pathname) ==> active
  {
    HrefsOfAllIff(if item.children.Kids? then item.children.items else [], pathname);
    item.href == Some(pathname)
    || (item.children.Kids? && exists i :: 0 <= i < |item.children.items| && IsLinkActive(item.children.items[i], pathname))
  }

  /** Every `href` in the subtree of `item`. */
  function Hrefs(item: NavItem): set<string>
    decreases item, 1
  {
    (if item.href.Some? then {item.href.value} else {})
    + (if item.children.Kids? then HrefsOfAll(item.children.items) else {})
  }

  function HrefsOfAll(items: seq<NavItem>): set<string>
    decreases items, 0
  {
    if items == [] then {} else Hrefs(items[0]) + HrefsOfAll(items[1..])
  }

  /** The first child's link of a group is among the group's links. */
  lemma FirstChildHrefIn(item: NavItem)
    requires item.children.Kids? && item.children.items != [] && item.children.items[0].href.Some?
    ensures item.children.items[0].href.value in Hrefs(item)
  {
    assert HrefsOfAll(item.children.items) == Hrefs(item.children.items[0]) + HrefsOfAll(item.children.items[1..]);
  }

  /** The links of a group without a link of its own and with two leaves are the leaves' links. */
  lemma TwoLeavesHrefs(lbl: string, icon: Option<string>, a: NavItem, b: NavItem)
    requires a.children.NoChildren? && b.children.NoChildren? && a.href.Some? && b.href.Some?
    ensures Hrefs(NavItem(lbl, icon, None, Kids([a, b]))) == {a.href.value, b.href.value}
  {
    assert [a, b][1..] == [b];
    assert [b][1..] == [];
    assert Hrefs(a) == {a.href.value} && Hrefs(b) == {b.href.value};
    assert HrefsOfAll([b]) == Hrefs(b) + HrefsOfAll([]);
    assert HrefsOfAll([a, b]) == Hrefs(a) + HrefsOfAll([b]);
  }

  /** A path is among the links of a list exactly when it is among the links of one of its items. */
  lemma {:induction false} HrefsOfAllIff(items: seq<NavItem>, pathname: string)
    ensures pathname in HrefsOfAll(items) <==> exists i :: 0 <= i < |items| && pathname in Hrefs(items[i])
  {
    if items != [] {
      HrefsOfAllIff(items[1..], pathname);
      if exists i :: 0 <= i < |items[1..]| && pathname in Hrefs(items[1..][i]) {
        var i :| 0 <= i < |items[1..]| && pathname in Hrefs(items[1..][i]);
        assert items[i + 1] == items[1..][i];
      }
      if exists i :: 0 <= i < |items| && pathname in Hrefs(items[i]) {
        var i :| 0 <= i < |items| && pathname in Hrefs(items[i]);
        if i > 0 {
          assert items[1..][i - 1] == items[i];
        }
      }
    }
  }

  /** Some item of a list is active exactly when the path is among the list's links. */
  lemma ActiveIffInSome(items: seq<NavItem>, pathname: string)
    ensures (exists i :: 0 <= i < |items| && IsLinkActive(items[i], pathname)) <==> pathname in HrefsOfAll(items)
  {
    HrefsOfAllIff(items, pathname);
  }

  /** An active child makes its parent active. */
  lemma ChildActiveParentActive(item: NavItem, i: nat, pathname: string)
    requires item.children.Kids? && i < |item.children.items|
    requires IsLinkActive(item.children.items[i], pathname)
    ensures IsLinkActive(item, pathname)
  {
  }

  /** A leaf is active only on its own path; an item with neither `href` nor children never is. */
  lemma LeafActiveIff(item: NavItem, pathname: string)
    requires item.children.NoChildren? || item.children.items == []
    ensures IsLinkActive(item, pathname) <==> item.href == Some(pathname)
  {
  }

  /** Some direct child links to the path itself. */
  predicate DirectChildAt(item: NavItem, pathname: string) {
    item.children.Kids? && exists i :: 0 <= i < |item.children.items| && item.children.items[i].href == Some(pathname)
  }

  /**
   * The background of a collapsible trigger: the group is active, but not
   * because of a direct child. So a highlighted trigger is either the active
   * page itself or the ancestor of a deeper active page: some grandchild or
   * lower item links to the path.
   */
  predicate TriggerHighlighted(item: NavItem, pathname: string): (lit: bool)
    ensures lit ==> pathname in Hrefs(item)
    ensures lit && item.children.Kids? ==>
      item.href == Some(pathname)
      || exists i :: 0 <= i < |item.children.items|
           && item.children.items[i].href != Some(pathname)
           && IsLinkActive(item.children.items[i], pathname)
    ensures item.href == Some(pathname) && !DirectChildAt(item, pathname) ==> lit
  {
    IsLinkActive(item, pathname) && !DirectChildAt(item, pathname)
  }

  /** `item.href || "#"`. */
  function LinkTarget(item: NavItem): (target: string)
    ensures item.href.Some? && item.href.value != [] ==> target == item.href.value
    ensures item.href.None? || item.href.value == [] ==> target == "#"
  {
    if item.href.Some? && item.href.value != [] then item.href.value else "#"
  }

  /** A link never points to the empty string. */
  lemma LinkTargetNonEmpty(item: NavItem)
    ensures LinkTarget(item) != []
  {
  }

  /** The collapsed sidebar: one icon link per top-level item that has an icon, with its highlight. */
  function CollapsedLinks(items: seq<NavItem>, pathname: string): (links: seq<(string, bool)>)
    ensures |links| <= |items|
  {
    if items == [] then []
    else
      var rest := CollapsedLinks(items[1..], pathname);
      if items[0].icon.Some? then [(LinkTarget(items[0]), IsLinkActive(items[0], pathname))] + rest else rest
  }

  /**
   * When every top-level item has an icon, the collapsed sidebar shows all of
   * them in order, each linking to its target and highlighted exactly when active.
   */
  lemma {:induction false} CollapsedLinksAll(items: seq<NavItem>, pathname: string)
    requires forall i :: 0 <= i < |items| ==> items[i].icon.Some?
    ensures |CollapsedLinks(items, pathname)| == |items|
    ensures forall i :: 0 <= i < |items| ==>
      CollapsedLinks(items, pathname)[i] == (LinkTarget(items[i]), IsLinkActive(items[i], pathname))
  {
    if items != [] {
      CollapsedLinksAll(items[1..], pathname);
      var links := CollapsedLinks(items, pathname);
      assert links == [(LinkTarget(items[0]), IsLinkActive(items[0], pathname))] + CollapsedLinks(items[1..], pathname);
      forall i | 1 <= i < |items|
        ensures links[i] == (LinkTarget(items[i]), IsLinkActive(items[i], pathname))
      {
        assert items[1..][i - 1] == items[i];
      }
    }
  }

  /** An item without an icon is not shown when the sidebar is collapsed. */
  lemma CollapsedSkipsIconless(item: NavItem, rest: seq<NavItem>, pathname: string)
    requires item.icon.None?
    ensures CollapsedLinks([item] + rest, pathname) == CollapsedLinks(rest, pathname)
  {
    assert ([item] + rest)[1..] == rest;
  }

  // ---------------------------------------------------------------------------
  // The tree the component ships with

  function Leaf(lbl: string, href: string): NavItem {
    NavItem(lbl, None, Some(href), NoChildren)
  }

  const Traffic: NavItem := Leaf("Traffic", "/reports/analytics/traffic")
  const Conversions: NavItem := Leaf("Conversions", "/reports/analytics/conversions")
  const Analytics: NavItem := NavItem("Analytics", None, Some("/reports/analytics"), Kids([Traffic, Conversions]))
  const Sales: NavItem := Leaf("Sales", "/reports/sales")
  const Reports: NavItem := NavItem("Reports", Some("FileText"), None, Kids([Sales, Analytics]))

  const ShippedNavItems: seq<NavItem> := [
    NavItem("Dashboard", Some("Home"), Some("/"), NoChildren),
    NavItem("Users", Some("Users"), Some("/userform"), NoChildren),
    Reports,
    NavItem("Settings", Some("Settings"), Some("/settings"), NoChildren)
  ]

  /** On the traffic page, the Reports group is active and highlighted; Analytics is active but not highlighted. */
  lemma TrafficPageActivatesReports()
    ensures IsLinkActive(ShippedNavItems[2], "/reports/analytics/traffic")
    ensures TriggerHighlighted(Reports, "/reports/analytics/traffic")
    ensures IsLinkActive(Analytics, "/reports/analytics/traffic")
    ensures !TriggerHighlighted(Analytics, "/reports/analytics/traffic")
    ensures !IsLinkActive(ShippedNavItems[0], "/reports/analytics/traffic")
  {
    var p := "/reports/analytics/traffic";
    assert Analytics.children.items[0] == Traffic;
    assert IsLinkActive(Traffic, p);
    assert IsLinkActive(Analytics, p);
    assert Reports.children.items[1] == Analytics;
    assert Sales.href != Some(p);
    assert Analytics.href != Some(p);
  }
}

=== FILE: sidebar_generator.dfy ===
/**
 * The navigation items the sidebar generator writes for the models: a
 * Dashboard link, then one collapsible group per model with its list and
 * create pages.
 */
module SidebarGenerator {
  import opened Wrappers
  import opened Text
  import Paths
  import opened NavTree

  const DashboardItem: NavItem := NavItem("Dashboard", Some("Home"), Some("/"), NoChildren)

  /** The group of one model: no link of its own, the users icon, and two children. */
  function ModelGroup(name: string): (g: NavItem)
    ensures g.lbl == Capitalize(name) && g.href.None? && g.icon == Some("Users")
    ensures g.children.Kids? && |g.children.items| == 2
    ensures Hrefs(g) == {Paths.ListPath(name), Paths.CreatePath(name)}
  {
    var cap := Capitalize(name);
    var all := NavItem("All " + cap + "s", None, Some(Paths.ListPath(name)), NoChildren);
    var create := NavItem("Create " + cap, None, Some(Paths.CreatePath(name)), NoChildren);
    TwoLeavesHrefs(cap, Some("Users"), all, create);
    NavItem(cap, Some("Users"), None, Kids([all, create]))
  }

  /** `navItems`. */
  function NavItems(modelNames: seq<string>): (items: seq<NavItem>)
    ensures |items| == 1 + |modelNames|
    ensures items[0] == DashboardItem
    ensures forall i :: 1 <= i < |items| ==> items[i] == ModelGroup(modelNames[i - 1])
  {
    [DashboardItem] + seq(|modelNames|, i requires 0 <= i < |modelNames| => ModelGroup(modelNames[i]))
  }

  /** Every item of `navItems` is the Dashboard link or the group of one of the models. */
  lemma NavItemIs(modelNames: seq<string>, item: NavItem)
    requires item in NavItems(modelNames)
    ensures item == DashboardItem || exists i :: 0 <= i < |modelNames| && item == ModelGroup(modelNames[i])
  {
    var items := NavItems(modelNames);
    var k :| 0 <= k < |items| && items[k] == item;
    if k > 0 {
      assert item == ModelGroup(modelNames[k - 1]);
    }
  }

  /**
   * A model group is active exactly on its model's list and create pages. The
   * emitted sidebar opens such a group and lights its trigger exactly then.
   */
  lemma ModelGroupActiveIff(name: string, pathname: string)
    ensures IsLinkActive(ModelGroup(name), pathname)
      <==> pathname == Paths.ListPath(name) || pathname == Paths.CreatePath(name)
  {
  }

  /**
   * Under the hand-written sidebar component's highlight rule, a group built
   * like a generated one is never highlighted: it is only ever active through a
   * direct child. (The emitted sidebar uses another rule: it lights the trigger
   * whenever the group is active.)
   */
  lemma ModelGroupNeverHighlighted(name: string, pathname: string)
    ensures !TriggerHighlighted(ModelGroup(name), pathname)
  {
    var g := ModelGroup(name);
    if IsLinkActive(g, pathname) {
      ModelGroupActiveIff(name, pathname);
      if pathname == Paths.ListPath(name) {
        assert g.children.items[0].href == Some(pathname);
      } else {
        assert g.children.items[1].href == Some(pathname);
      }
    }
  }

  /** What reading the first child of an empty group throws. */
  const EmptyGroupError: string := "TypeError: Cannot read properties of undefined (reading 'href')"

  /**
   * The link of an item in the emitted sidebar when it is collapsed: a group
   * links to its first child's page, any other item to its own `href`. An empty
   * group is still a group (`[]` is truthy), and reading its missing first
   * child throws.
   */
  function CollapsedTarget(item: NavItem): (target: Result<Option<string>, string>)
    ensures item.children.NoChildren? ==> target == Success(item.href)
    ensures item.children.Kids? ==> (target.Failure? <==> item.children.items == [])
    ensures target.Failure? ==> target.error == EmptyGroupError
    ensures item.children.Kids? && target.Success? && target.value.Some? ==> target.value.value in Hrefs(item)
  {
    match item.children
    case NoChildren => Success(item.href)
    case Kids(kids) =>
      if kids == [] then Failure(EmptyGroupError)
      else if kids[0].href.None? then Success(None)
      else FirstChildHrefIn(item); Success(kids[0].href)
  }

  /** Collapsed, the emitted sidebar links the Dashboard to `/` and each model group to its list page. */
  lemma CollapsedTargetsRouted(modelNames: seq<string>, k: nat)
    requires k <= |modelNames|
    ensures CollapsedTarget(NavItems(modelNames)[k])
      == if k == 0 then Success(Some("/")) else Success(Some(Paths.ListPath(modelNames[k - 1])))
  {
  }

  /** The model groups' labels and child paths, for a concrete model. */
  lemma ProductGroup()
    ensures ModelGroup("product").lbl == "Product"
    ensures ModelGroup("product").children.items[0] == NavItem("All Products", None, Some("/products"), NoChildren)
    ensures ModelGroup("product").children.items[1] == NavItem("Create Product", None, Some("/product/create"), NoChildren)
  {
    ProductNames();
  }

  /** The names and paths derived from the model name `product`. */
  lemma ProductNames()
    ensures Capitalize("product") == "Product"
    ensures Paths.ListPath("product") == "/products"
    ensures Paths.CreatePath("product") == "/product/create"
  {
    assert Lower("product") == "product";
  }
}

=== FILE: text.dfy ===
/**
 * The JavaScript string primitives the generator relies on, restricted to what
 * the model needs: ASCII case mapping (`toUpperCase`/`toLowerCase`), `trim` and
 * the regex class `\s` (both use the ECMAScript WhiteSpace and LineTerminator
 * characters), `includes`, `split`/`join` on one separator character,
 * `replace` of one character everywhere, `capitalize`, and the first-occurrence
 * de-duplication of `[...new Set(xs)]`.
 */
module Text {

  // ---------------------------------------------------------------------------
  // Characters

  predicate IsUpperAscii(c: char) { 'A' <= c <= 'Z' }

  predicate IsLowerAscii(c: char) { 'a' <= c <= 'z' }

  predicate IsDigitAscii(c: char) { '0' <= c <= '9' }

  function ToUpperChar(c: char): (r: char)
    ensures IsLowerAscii(c) ==> IsUpperAscii(r) && r as int == c as int - 32
    ensures !IsLowerAscii(c) ==> r == c
  {
    if IsLowerAscii(c) then (c as int - 32) as char else c
  }

  function ToLowerChar(c: char): (r: char)
    ensures IsUpperAscii(c) ==> IsLowerAscii(r) && r as int == c as int + 32
    ensures !IsUpperAscii(c) ==> r == c
  {
    if IsUpperAscii(c) then (c as int + 32) as char else c
  }

  /** The characters `String.prototype.trim` removes and the regex `\s` matches. */
  predicate IsWhitespace(c: char) {
    || c == '\t' || c == '\n' || c == '\U{000B}' || c == '\U{000C}' || c == '\r'
    || c == ' ' || c == '\U{00A0}' || c == '\U{1680}'
    || ('\U{2000}' <= c <= '\U{200A}')
    || c == '\U{2028}' || c == '\U{2029}' || c == '\U{202F}' || c == '\U{205F}'
    || c == '\U{3000}' || c == '\U{FEFF}'
  }

  // ---------------------------------------------------------------------------
  // Case mapping

  /** `toUpperCase`, on ASCII letters only. */
  function Upper(s: string): string {
    seq(|s|, i requires 0 <= i < |s| => ToUpperChar(s[i]))
  }

  /** `toLowerCase`, on ASCII letters only. */
  function Lower(s: string): string {
    seq(|s|, i requires 0 <= i < |s| => ToLowerChar(s[i]))
  }

  lemma LowerIdempotent(s: string)
    ensures Lower(Lower(s)) == Lower(s)
  {
  }

  /** Lower-casing forgets the case of the input: `Lower` is case-insensitive. */
  lemma LowerOfUpper(s: string)
    ensures Lower(Upper(s)) == Lower(s)
  {
  }

  // ---------------------------------------------------------------------------
  // Trimming

  function TrimStart(s: string): string {
    if s != [] && IsWhitespace(s[0]) then TrimStart(s[1..]) else s
  }

  function TrimEnd(s: string): string {
    if s != [] && IsWhitespace(s[|s| - 1]) then TrimEnd(s[..|s| - 1]) else s
  }

  /** `trimStart` drops exactly the leading whitespace. */
  lemma {:induction false} TrimStartSpec(s: string)
    ensures var r := TrimStart(s);
      && |r| <= |s| && r == s[|s| - |r|..]
      && (forall i :: 0 <= i < |s| - |r| ==> IsWhitespace(s[i]))
      && (r == [] || !IsWhitespace(r[0]))
  {
    if s != [] && IsWhitespace(s[0]) {
      TrimStartSpec(s[1..]);
      var r := TrimStart(s[1..]);
      assert s[1..][|s| - 1 - |r|..] == s[|s| - |r|..];
      forall i | 0 <= i < |s| - |r|
        ensures IsWhitespace(s[i])
      {
        if i > 0 {
          assert s[1..][i - 1] == s[i];
        }
      }
    }
  }

  /** `trimEnd` drops exactly the trailing whitespace. */
  lemma {:induction false} TrimEndSpec(s: string)
    ensures var r := TrimEnd(s);
      && |r| <= |s| && r == s[..|r|]
      && (forall i :: |r| <= i < |s| ==> IsWhitespace(s[i]))
      && (r == [] || !IsWhitespace(r[|r| - 1]))
  {
    if s != [] && IsWhitespace(s[|s| - 1]) {
      var t := s[..|s| - 1];
      TrimEndSpec(t);
      var r := TrimEnd(t);
      assert t[..|r|] == s[..|r|];
      forall i | |r| <= i < |s|
        ensures IsWhitespace(s[i])
      {
        if i < |s| - 1 {
          assert t[i] == s[i];
        }
      }
    }
  }

  /** `String.prototype.trim`. */
  function Trim(s: string): string {
    TrimEnd(TrimStart(s))
  }

  /** Neither starts nor ends with whitespace: what `trim` leaves. */
  predicate IsTrimmed(s: string) {
    s == [] || (!IsWhitespace(s[0]) && !IsWhitespace(s[|s| - 1]))
  }

  /** A trimmed string is a slice of its input that neither starts nor ends with whitespace. */
  lemma TrimSpec(s: string)
    ensures var r := Trim(s);
      && (exists i, j :: 0 <= i <= j <= |s| && r == s[i..j])
      && IsTrimmed(r)
  {
    var t := TrimStart(s);
    var r := TrimEnd(t);
    TrimStartSpec(s);
    TrimEndSpec(t);
    assert r == s[|s| - |t|..][..|r|] == s[|s| - |t|..|s| - |t| + |r|];
  }

  /** The trimmed string is empty exactly when the input is all whitespace. */
  lemma TrimEmptyIff(s: string)
    ensures Trim(s) == [] <==> forall i :: 0 <= i < |s| ==> IsWhitespace(s[i])
  {
    var t := TrimStart(s);
    TrimStartSpec(s);
    TrimEndSpec(t);
    if t != [] {
      assert !IsWhitespace(t[0]);
    }
  }

  /** Every character of a trimmed string comes from the input. */
  lemma TrimSubset(s: string)
    ensures forall c :: c in Trim(s) ==> c in s
  {
    TrimSpec(s);
  }

  lemma TrimOfTrimmed(s: string)
    requires IsTrimmed(s)
    ensures Trim(s) == s
  {
  }

  lemma TrimIdempotent(s: string)
    ensures Trim(Trim(s)) == Trim(s)
  {
    TrimSpec(s);
    TrimOfTrimmed(Trim(s));
  }

  // ---------------------------------------------------------------------------
  // Substrings

  predicate StartsWith(s: string, prefix: string) {
    |prefix| <= |s| && s[..|prefix|] == prefix
  }

  /** `sub` occurs in `s` at index `i`. */
  predicate OccursAt(s: string, sub: string, i: int) {
    0 <= i && i + |sub| <= |s| && s[i..i + |sub|] == sub
  }

  /** `String.prototype.includes`. */
  predicate Contains(s: string, sub: string) {
    StartsWith(s, sub) || (s != [] && Contains(s[1..], sub))
  }

  lemma {:induction false} ContainsIff(s: string, sub: string)
    ensures Contains(s, sub) <==> exists i :: OccursAt(s, sub, i)
  {
    if s == [] {
      if exists i :: OccursAt(s, sub, i) {
        var i :| OccursAt(s, sub, i);
        assert StartsWith(s, sub);
      }
      if Contains(s, sub) {
        assert OccursAt(s, sub, 0);
      }
    } else {
      ContainsIff(s[1..], sub);
      if Contains(s, sub) {
        if StartsWith(s, sub) {
          assert OccursAt(s, sub, 0);
        } else {
          var i :| OccursAt(s[1..], sub, i);
          assert s[1..][i..i + |sub|] == s[i + 1..i + 1 + |sub|];
          assert OccursAt(s, sub, i + 1);
        }
      }
      if exists i :: OccursAt(s, sub, i) {
        var i :| OccursAt(s, sub, i);
        if i == 0 {
          assert StartsWith(s, sub);
        } else {
          assert s[1..][i - 1..i - 1 + |sub|] == s[i..i + |sub|];
          assert OccursAt(s[1..], sub, i - 1);
        }
      }
    }
  }

  /** A witnessed occurrence makes `Contains` true. */
  lemma ContainsAt(s: string, sub: string, i: int)
    requires OccursAt(s, sub, i)
    ensures Contains(s, sub)
  {
    ContainsIff(s, sub);
  }

  // ---------------------------------------------------------------------------
  // Character replacement, capitalisation

  /** `s.replace(/a/g, b)` for a single character `a`. */
  function ReplaceChar(s: string, a: char, b: char): string {
    seq(|s|, i requires 0 <= i < |s| => if s[i] == a then b else s[i])
  }

  lemma ReplaceCharRemoves(s: string, a: char, b: char)
    requires a != b
    ensures a !in ReplaceChar(s, a, b)
  {
  }

  lemma ReplaceCharAbsent(s: string, a: char, b: char)
    requires a !in s
    ensures ReplaceChar(s, a, b) == s
  {
  }

  /** `s.charAt(0).toUpperCase() + s.slice(1)`. */
  function Capitalize(s: string): (r: string)
    ensures |r| == |s|
    ensures s != [] ==> r[0] == ToUpperChar(s[0]) && r[1..] == s[1..]
  {
    if s == [] then [] else [ToUpperChar(s[0])] + s[1..]
  }

  // ---------------------------------------------------------------------------
  // Split and join on one separator character

  /** `s.split(sep)`: every piece between separators, including empty ones. */
  function Split(s: string, sep: char): (r: seq<string>)
    ensures |r| >= 1
    ensures forall k :: 0 <= k < |r| ==> sep !in r[k]
  {
    if s == [] then [[]]
    else if s[0] == sep then [[]] + Split(s[1..], sep)
    else
      var t := Split(s[1..], sep);
      [[s[0]] + t[0]] + t[1..]
  }

  /** `parts.join(sep)`. */
  function Join(parts: seq<string>, sep: char): string {
    if |parts| == 0 then []
    else if |parts| == 1 then parts[0]
    else parts[0] + [sep] + Join(parts[1..], sep)
  }

  /** Joining a split with the same separator gives the input back. */
  lemma {:induction false} JoinSplit(s: string, sep: char)
    ensures Join(Split(s, sep), sep) == s
  {
    if s == [] {
    } else if s[0] == sep {
      JoinSplit(s[1..], sep);
    } else {
      var t := Split(s[1..], sep);
      JoinSplit(s[1..], sep);
      JoinConsHead([s[0]], t, sep);
    }
  }

  /** Prepending text to the first piece prepends it to the joined string. */
  lemma JoinConsHead(x: string, parts: seq<string>, sep: char)
    requires |parts| >= 1
    ensures Join([x + parts[0]] + parts[1..], sep) == x + Join(parts, sep)
  {
    var p := [x + parts[0]] + parts[1..];
    assert p[1..] == parts[1..];
  }

  // ---------------------------------------------------------------------------
  // De-duplication in first-occurrence order

  predicate Distinct<T(==)>(xs: seq<T>) {
    forall i, j :: 0 <= i < j < |xs| ==> xs[i] != xs[j]
  }

  /** The position of the first occurrence of `x` in `xs`. */
  function FirstIndex<T(==)>(xs: seq<T>, x: T): (k: nat)
    requires x in xs
    ensures k < |xs| && xs[k] == x && x !in xs[..k]
  {
    if xs[0] == x then 0
    else
      var k := 1 + FirstIndex(xs[1..], x);
      assert xs[..k] == [xs[0]] + xs[1..][..k - 1];
      k
  }

  /** An occurrence with no earlier occurrence is the first one. */
  lemma FirstIndexUnique<T>(xs: seq<T>, x: T, k: nat)
    requires k < |xs| && xs[k] == x && x !in xs[..k]
    ensures FirstIndex(xs, x) == k
  {
  }

  /** Appending an element moves no first occurrence, and a new element first occurs at the end. */
  lemma FirstIndexInit<T>(xs: seq<T>)
    requires |xs| > 0
    ensures forall y :: y in xs[..|xs| - 1] ==> FirstIndex(xs, y) == FirstIndex(xs[..|xs| - 1], y)
    ensures xs[|xs| - 1] !in xs[..|xs| - 1] ==> FirstIndex(xs, xs[|xs| - 1]) == |xs| - 1
  {
    var init := xs[..|xs| - 1];
    forall y | y in init
      ensures FirstIndex(xs, y) == FirstIndex(init, y)
    {
      var k := FirstIndex(init, y);
      assert xs[..k] == init[..k];
      FirstIndexUnique(xs, y, k);
    }
    if xs[|xs| - 1] !in init {
      FirstIndexUnique(xs, xs[|xs| - 1], |xs| - 1);
    }
  }

  /** `[...new Set(xs)]`: each element once, in the order of first occurrence. */
  function Dedup<T(==,!new)>(xs: seq<T>): (r: seq<T>)
    ensures Distinct(r)
    ensures forall x :: x in r <==> x in xs
    ensures |r| <= |xs|
    ensures forall i, j :: 0 <= i < j < |r| ==> FirstIndex(xs, r[i]) < FirstIndex(xs, r[j])
  {
    if xs == [] then []
    else
      var d := Dedup(xs[..|xs| - 1]);
      var x := xs[|xs| - 1];
      assert xs == xs[..|xs| - 1] + [x];
      FirstIndexInit(xs);
      if x in xs[..|xs| - 1] then d else d + [x]
  }

  /**
   * Two repeat-free lists with the same elements, each in the order of first
   * occurrence in `xs`, are equal.
   */
  lemma {:induction false} OrderedByFirstUnique<T>(xs: seq<T>, a: seq<T>, b: seq<T>)
    requires forall x :: x in a ==> x in xs
    requires forall x :: x in a <==> x in b
    requires Distinct(a) && Distinct(b)
    requires forall i, j :: 0 <= i < j < |a| ==> FirstIndex(xs, a[i]) < FirstIndex(xs, a[j])
    requires forall i, j :: 0 <= i < j < |b| ==> FirstIndex(xs, b[i]) < FirstIndex(xs, b[j])
    ensures a == b
    decreases |a|
  {
    if a != [] && b != [] {
      assert a[0] in b && b[0] in a;
      var k :| 0 <= k < |a| && a[k] == b[0];
      var m :| 0 <= m < |b| && b[m] == a[0];
      assert k == 0 || m == 0;
      SameElementsTail(a, b);
      OrderedByFirstUnique(xs, a[1..], b[1..]);
    } else {
      SameElementsEmpty(a, b);
    }
  }

  /** Two repeat-free lists with the same elements and the same head have tails with the same elements. */
  lemma SameElementsTail<T>(a: seq<T>, b: seq<T>)
    requires Distinct(a) && Distinct(b) && a != [] && b != [] && a[0] == b[0]
    requires forall x :: x in a <==> x in b
    ensures forall x :: x in a[1..] <==> x in b[1..]
  {
    TailIncluded(a, b);
    TailIncluded(b, a);
  }

  /** With a repeat-free `a` and the same head, what the tail of `a` holds the tail of `b` holds too. */
  lemma TailIncluded<T>(a: seq<T>, b: seq<T>)
    requires Distinct(a) && a != [] && b != [] && a[0] == b[0]
    requires forall x :: x in a ==> x in b
    ensures forall x :: x in a[1..] ==> x in b[1..]
  {
    forall x | x in a[1..]
      ensures x in b[1..]
    {
      var k :| 0 <= k < |a| - 1 && a[1..][k] == x;
      assert a[k + 1] == x && a[0] != x;
      assert x in b;
      var m :| 0 <= m < |b| && b[m] == x;
      assert b[1..][m - 1] == x;
    }
  }

  /** Of two lists with the same elements, one is empty exactly when the other is. */
  lemma SameElementsEmpty<T>(a: seq<T>, b: seq<T>)
    requires forall x :: x in a <==> x in b
    ensures a == [] <==> b == []
  {
    if a != [] { assert a[0] in b; }
    if b != [] { assert b[0] in a; }
  }

  /** Dedup is the only repeat-free list of the elements of `xs` in the order of first occurrence. */
  lemma DedupCharacterised<T(!new)>(xs: seq<T>, r: seq<T>)
    requires Distinct(r) && forall x :: x in r <==> x in xs
    requires forall i, j :: 0 <= i < j < |r| ==> FirstIndex(xs, r[i]) < FirstIndex(xs, r[j])
    ensures r == Dedup(xs)
  {
    OrderedByFirstUnique(xs, r, Dedup(xs));
  }

  /** Appending an element already seen leaves the de-duplication unchanged; a new one is appended. */
  lemma DedupSnoc<T(!new)>(xs: seq<T>, x: T)
    ensures Dedup(xs + [x]) == if x in xs then Dedup(xs) else Dedup(xs) + [x]
  {
    assert (xs + [x])[..|xs|] == xs;
  }
}

=== FILE: wrappers.dfy ===
/** Option and Result: the optional values and error returns of the generator. */
module Wrappers {

  /** An optional value: a spreadsheet cell that may be absent, an `undefined` result. */
  datatype Option<+T> = None | Some(value: T) {

    /** The wrapped value, or `default` when there is none. */
    function GetOr(default: T): T {
      match this
      case Some(v) => v
      case None => default
    }
  }

  /** A successful value or an error message (a thrown `Error`). */
  datatype Result<+R, +E> = Success(value: R) | Failure(error: E)
}
